=== FILE: README.md ===
# Fixed-rate mortgage calculator, modelled in Dafny

This project models `FixedRateCalculator` from `Mortgage.py`. A fixed-rate
loan is described by four quantities:

- the loan size P;
- the nominal annual interest rate (the monthly rate r is rate / 12);
- the monthly payment;
- the term in months n.

The constructor takes keyword arguments. It checks each argument against the
rule for its key and warns about keys it does not know. From any three of the
four quantities it derives the fourth:

- the payment, principal and term by closed formulas;
- the rate as a root of a polynomial, by Newton's method with bisection as
  the fallback.

Once built, a calculator answers these queries:

- interest and principal for a given month;
- total paid to the lender and total interest;
- the amortization schedule, as columns.

Two alternative constructors derive their arguments first:

- `limit_on_interest_payed` turns a cap on total interest into a payment;
- `from_down_payment_and_total` turns a house price and a down payment into a
  loan size.

What the model proves:

- The validator accepts an argument list exactly when every rule holds. It
  reports the first failing key. It warns once per unknown key, in argument
  order.
- The constructor picks its case exactly as the source's chain of subset
  tests does. It keeps every supplied value unchanged.
- The closed forms satisfy the annuity identity `pay·((1+r)^n − 1) = P·r·(1+r)^n`.
  Payment and principal invert each other.
- The term formula returns n for a payment computed for n months, given a
  logarithm that obeys the log law at the two points involved.
- The coefficient list built for the rate case is the annuity identity
  divided by r, by the binomial theorem. Its root is the rate, scaled by
  1/12, exactly when the payment is the annuity payment.
- The derivative list is the derivative of that polynomial.
- Interest for month m is r times the balance after month m − 1.
- The principal and interest of each row sum to the payment.
- The balance column is the loan minus the running principal. In every row,
  total interest plus principal repaid equals the payments made so far.
- For a loan whose payment was derived (or whose principal was), the last
  balance is 0, ownership ends at 100 %, and the last total-interest entry
  equals `total_interest_payed`.
- Under the same conditions the balance never grows, ownership never falls
  and total interest never falls.

Modelling choices:

- Python `float` arithmetic is modelled by exact `real` arithmetic, and `**`
  by repeated multiplication.
- Keyword arguments are a sequence of name/value pairs in insertion order,
  which is the order the validator walks them. A value is an `int`, a
  `float`, or something else.
- A raised exception is a `Failure` carrying one `Error` constructor per
  failing check of the source. Checks of the same quantity share a
  constructor even where their messages differ, as the two `total` checks
  do. `warnings.warn` becomes a `Warning` in the
  result.
- `math.log` and the two SciPy root finders are not reimplemented. They are
  function parameters (`Numerics`, `RootFinders`): the model states what
  follows from whatever they return.
- `int(...)` in `_solve_for_months` truncates toward zero (`TruncToInt`).
- The source computes month m's interest as `P·rate/12 − pay` times
  `(1 + rate/12)^(m−1)`, plus the payment. The model groups `P·rate/12` as
  `P·(rate/12)`, the monthly rate r. Over the reals the two are the same
  number.

The coefficient list built at Mortgage.py:188 has, lowest power first, the
entries `pay·C(n, j+1) − P·C(n, j)` for j < n and `−P` for the top power. It
is a polynomial in the monthly rate x itself. Multiplied by x, it equals
`pay·((1+x)^n − 1) − P·x·(1+x)^n`, so its positive roots are the monthly
rates at which the payment is the annuity payment.

Module layout, one file each:

- `Results` holds the result type.
- `RealArith` holds powers, geometric sums, binomials and truncation.
- `Poly` holds coefficient lists, Horner evaluation, the derivative and the
  binomial theorem.
- `Params` holds values, arguments, the validator and the argument
  accessors.
- `Solvers` holds the three closed forms.
- `RatePoly` holds the two coefficient lists and the root-finding fallback.
- `Amortization` holds the monthly queries, totals and schedule columns.
- `Resolver` holds the constructor.
- `Constructors` holds the two alternative constructors.

## Model

| member | source | states |
|---|---|---|
| RealArith.TruncToInt | Mortgage.py:183 | `int()` truncates toward zero: for x ≥ 0 the result k has k ≤ x < k+1, and for x < 0 it has k−1 < x ≤ k |
| RealArith.GeomSumClosedForm | Mortgage.py:130 | (q−1)·Σ_{i<m} q^i = q^m − 1, the sum behind the month-m interest formula |
| RealArith.PowAboveOne | Mortgage.py:173 | (1+r)^n > 1 for r > 0 and n ≥ 1, so the payment formula's denominator is never zero |
| Poly.BinomialTheorem | Mortgage.py:188 | the row C(n,0..n), evaluated at x, is (1+x)^n |
| Poly.EvalLinear | Mortgage.py:188 | a pointwise combination a·u + b·v of coefficient lists evaluates to a·Eval(u) + b·Eval(v) |
| Poly.EvalShift | Mortgage.py:188 | prepending a zero coefficient multiplies the polynomial's value by x |
| Poly.PascalRows | Mortgage.py:188 | Pascal's rule on whole rows: row n of C(n, k) is row n − 1 padded with a zero at the top, plus row n − 1 shifted up one place |
| Params.Validate | Mortgage.py:267-307 | accepts exactly the argument lists in which every known key satisfies its rule (over exact reals: see "Left out" on NaN). On rejection it names the first failing key. On acceptance every warning names an unknown key present, every unknown key is warned about, and none of the four known keys is |
| Params.ValidateConcat | Mortgage.py:269-307 | warnings come argument by argument: one for each unknown key and none for a known one, and a concatenation's warnings are its parts' in order. So each unknown key is warned about exactly once, in argument order |
| Params.ValidatorRules | Mortgage.py:270-307 | the per-key rules: loan_size and monthly_payment are numbers above zero; interest_rate is a float strictly between 0 and 1; num_months is an int of at least 1; any other key is accepted with one warning |
| Params.ValidateCoreOnly | Mortgage.py:269-305 | a valid list that uses only the four known keys passes with no warning |
| Params.KeysIndex | Mortgage.py:25 | a name is among the supplied keys exactly when some argument carries it |
| Params.LookupFirst | Mortgage.py:28-31 | looking up a key returns the value of its first occurrence |
| Params.LookupValid | Mortgage.py:270-305 | after validation, the value stored under a known key satisfies that key's rule |
| Params.AmountArg | Mortgage.py:270-295 | a validated loan_size or monthly_payment read as a positive number |
| Params.RateArg | Mortgage.py:279-286 | a validated interest_rate is a float in (0, 1) |
| Params.TermArg | Mortgage.py:297-304 | a validated num_months is an int of at least 1 |
| Solvers.PaymentFrom | Mortgage.py:172-173 | the payment solves the annuity identity for the given principal, rate and term, and for P > 0 it exceeds the first month's interest P·r |
| Solvers.PrincipalFrom | Mortgage.py:177-178 | the principal solves the annuity identity for the given payment, and for a positive payment it is positive and its first month's interest is below the payment |
| Solvers.AnnuityDeterminesPayment | Mortgage.py:172-173 | for a positive rate, a payment satisfies the annuity identity if and only if it equals the closed-form payment |
| Solvers.AnnuityDeterminesPrincipal | Mortgage.py:177-178 | for a positive rate, a principal satisfies the annuity identity if and only if it equals the closed-form principal |
| Solvers.PaymentThenPrincipal | Mortgage.py:172-178 | principal recovered from the computed payment is the original principal |
| Solvers.PrincipalThenPayment | Mortgage.py:172-178 | payment recovered from the computed principal is the original payment |
| Solvers.AnnuityAboveInterest | Mortgage.py:172-183 | a payment satisfying pay·(q − 1) = w·q with w > 0 and q > 1 exceeds w, so a closed-form payment is always above the first month's interest |
| Solvers.MonthsFrom | Mortgage.py:182-183 | fails with a math-domain error exactly when P·r ≥ payment (log of a non-positive number). Fails with division by zero exactly when the payment is large enough but log(1+r) = 0. Otherwise it returns the truncation of −log(1 − rP/pay)/log(1+r) |
| Solvers.Discount | Mortgage.py:183 | the discount factor d times the growth factor (1+r)^n is 1, so d = 1/(1+r)^n |
| Solvers.DiscountAlgebra | Mortgage.py:183 | when pay·(q − 1) = P·r·q and d·q = 1, the logarithm's argument 1 − rP/pay equals d, which is 1/(1+r)^n for q = (1+r)^n |
| Solvers.MonthsFromAnnuity | Mortgage.py:182-183 | for a loan satisfying the annuity identity over n months, and a logarithm that obeys the log law at the discount factor, the term formula returns exactly n |
| Solvers.MonthsRoundTrip | Mortgage.py:172-183 | with a logarithm that obeys the log law, the term recovered from a payment derived for n months is exactly n |
| RatePoly.DerivCoeffsAreDerivative | Mortgage.py:187-195 | the derivative coefficient list is the formal derivative of the rate polynomial's list |
| RatePoly.DerivCoeffsScaled | Mortgage.py:187-194 | the derivative list has n entries, and entry j is (j+1) times entry j+1 of the rate polynomial's list |
| RatePoly.EvalGrowthMinusOne | Mortgage.py:188 | the list C(n,1..n) evaluates to (1+x)^n − 1 |
| RatePoly.ShiftedRatePolyCoeffs | Mortgage.py:188 | x times the rate polynomial's list is, coefficient by coefficient, pay·((1+x)^n − 1) minus P·x·(1+x)^n |
| RatePoly.RatePolyIsAnnuity | Mortgage.py:187-189 | x·poly(x) = pay·((1+x)^n − 1) − P·x·(1+x)^n for every x |
| RatePoly.RootIffIdentity | Mortgage.py:187-189 | for x ≠ 0, x is a root exactly when pay·((1+x)^n − 1) = P·x·(1+x)^n |
| RatePoly.AnnuityAtMonthlyRate | Mortgage.py:172-173 | the annuity identity at annual rate 12x is the same identity written in the monthly rate x |
| RatePoly.RootIffPayment | Mortgage.py:187-189 | for x > 0, x is a root exactly when the payment is the annuity payment at annual rate 12x, the rate line 223 returns |
| RatePoly.SolveForInterestRate | Mortgage.py:199-223 | Newton from 0.5 first, then bisection on [0, 1], both capped at 100 iterations. Fails with "root not found" exactly when neither converges. Otherwise it returns 12 times the first converged root |
| RatePoly.SolvedRateReproducesPayment | Mortgage.py:199-223 | when the finder's root is a genuine positive root, the returned rate's closed-form payment is the supplied payment |
| Amortization.PrincipalRepaidClosedForm | Mortgage.py:130-140 | principal repaid over k months is (pay − P·r)·Σ_{i<k}(1+r)^i |
| Amortization.BalanceClosedForm | Mortgage.py:134-140 | the balance (line 105) after k months is P − (pay − P·r)·Σ_{i<k}(1+r)^i |
| Amortization.InterestOnBalance | Mortgage.py:130 | the month-m interest formula equals r times the balance after m − 1 months |
| Amortization.InterestForMonth | Mortgage.py:122-130 | rejects exactly a month that is not an int of at least 1. Month 1 costs P·r. Month m costs r times the balance after m − 1 months |
| Amortization.PrincipalForMonth | Mortgage.py:134-140 | rejects the same months. Its value plus the month's interest is the payment, and it is exactly the drop in balance that month |
| Amortization.SumPrincipalColumn | Mortgage.py:100-105 | the first k entries of the principal column sum to the principal repaid over k months |
| Amortization.SumInterestColumn | Mortgage.py:101-106 | the first k entries of the interest column sum to k payments less the principal repaid |
| Amortization.TotalInterestEntries | Mortgage.py:101-106 | the total-interest column has one entry per month. Entry i is the interest paid through month i+1, that is i+1 payments less the principal repaid |
| Amortization.BalanceColumnIsBalance | Mortgage.py:105 | the balance column has one entry per month and entry i is the balance after month i+1 |
| Amortization.ScheduleConservation | Mortgage.py:105-106 | in every row, cumulative interest plus principal repaid equals the payments made so far |
| Amortization.BalanceExhausted | Mortgage.py:105 | with the closed-form payment of line 173, the balance after n months is exactly 0 |
| Amortization.ScheduleEndsPaidOff | Mortgage.py:105-118 | with the closed-form payment, the last row has balance 0 and ownership 100, and its total interest equals `total_interest_payed` |
| Amortization.BalanceNonIncreasing | Mortgage.py:105 | when the payment covers the first month's interest, the balance never rises from one month to a later one |
| Amortization.OwnershipEntry | Mortgage.py:107 | ownership in row i is 100·(1 − balance/P) |
| Amortization.OwnershipNonDecreasing | Mortgage.py:105-107 | for P > 0 and a payment covering the first month's interest, the ownership column never decreases |
| Amortization.BalanceNonNegative | Mortgage.py:105 | with the closed-form payment of line 173, the balance stays at or above 0 throughout the term |
| Amortization.InterestPaidGrows | Mortgage.py:122-130 | with the closed-form payment, interest paid through month a is at most interest paid through month b, for a ≤ b ≤ n |
| Amortization.TotalInterestNonDecreasing | Mortgage.py:106 | with the closed-form payment, the total-interest column never decreases |
| Resolver.CaseOf | Mortgage.py:27-77 | the case chosen: all four keys supplied; exactly one missing, naming which; or two or more missing, which is an error |
| Resolver.RateWarnings | Mortgage.py:66-73 | at most one warning. Negative below 0, low in [0, 0.005), high above 0.10, none in [0.005, 0.10] |
| Resolver.Resolve | Mortgage.py:21-77 | validation errors pass through. "Not enough parameters" happens exactly when the arguments are valid but two or more quantities are missing. Otherwise every supplied value is kept unchanged, and the validator's warnings come first. The error set is closed. Per case, AllSuppliedAccepted, ClosedFormCasesBalanced, DerivedMonths and DerivedRateFallback state when it succeeds and that nothing else is warned about |
| Resolver.SuppliedLoan | Mortgage.py:27-31 | with all four keys supplied, the loan holds exactly the supplied values |
| Resolver.PaymentLoan | Mortgage.py:34-39 | without monthly_payment, the loan keeps the supplied size, rate and term, and its payment satisfies the annuity identity |
| Resolver.PrincipalLoan | Mortgage.py:42-47 | without loan_size, the loan keeps the supplied payment, rate and term, and its positive size satisfies the annuity identity |
| Resolver.MonthsLoan | Mortgage.py:50-55 | without num_months, the result fails exactly when the term formula fails, with the same error (a math-domain error or division by zero). On success the term is the formula's value, and the supplied size, payment and rate are kept |
| Resolver.DerivedMonths | Mortgage.py:50-55 | the same, stated on the constructor: with num_months missing, it fails exactly when the term formula does, with its error. Otherwise the term is the formula's value and the only warnings are the validator's |
| Resolver.RateLoan | Mortgage.py:58-65 | without interest_rate, the result fails only when no root is found. On success it keeps the supplied size, payment and term |
| Resolver.AllSuppliedTrusted | Mortgage.py:27-31 | with all four supplied nothing is cross-checked: a 1-unit payment on a 1000 loan is accepted though it breaks the annuity identity |
| Resolver.TwoKeysInsufficient | Mortgage.py:76-77 | loan size and term alone are rejected as not enough parameters |
| Resolver.RateBoundaries | Mortgage.py:279-286 | rates 0.0 and 1.0 and the int 0 are rejected as invalid interest_rate, before any case is chosen |
| Resolver.AllSuppliedAccepted | Mortgage.py:27-31 | valid arguments with all four keys are always accepted: the loan holds exactly the supplied values and the only warnings are the validator's |
| Resolver.ClosedFormCasesBalanced | Mortgage.py:34-47 | on valid arguments with the payment or the principal missing, the constructor always succeeds. Its loan satisfies the annuity identity with a positive rate, and the only warnings are the validator's |
| Resolver.ClosedFormSchedulePaysOff | Mortgage.py:34-47 | such a loan's schedule (lines 105-107) ends at balance 0, ownership 100, with the final total interest equal to `total_interest_payed` |
| Resolver.DerivedRateFallback | Mortgage.py:58-73 | in the rate case the result fails exactly when neither root finder converges. Otherwise the rate is 12 times the first converged root and the rate warning follows the validator's warnings |
| Resolver.DerivedRateReproducesPayment | Mortgage.py:58-65 | when the derived rate is positive and a genuine root, the resulting loan satisfies the annuity identity |
| Constructors.LimitOnInterestPaid | Mortgage.py:144-168 | validates loan size and term first, then rejects a limit that is not a number or is negative. With valid size and term and a numeric limit of at least 0, the result is the constructor run on size, payment (size + limit)/n and term, so it can fail only when no root is found. On success the loan keeps the given size and term, its total paid to the lender is size + limit and its total interest is the limit |
| Constructors.LimitPayment | Mortgage.py:156-157 | the derived payment is positive, and n payments total the loan size plus the limit |
| Constructors.LimitResolution | Mortgage.py:156-159 | the constructor on the derived arguments either finds no root, or yields a loan that keeps size and term and pays the lender size + limit in total |
| Constructors.LimitBreakeven | Mortgage.py:156-168 | when the rate found is a positive genuine root, it is the breakeven rate: the closed-form payment at that rate, paid over the term, totals the loan plus exactly the limit |
| Constructors.RemoveNames | Mortgage.py:255-256 | deleting keys leaves exactly the other keys, with their values |
| Constructors.RemoveNamesConcat | Mortgage.py:255-256 | deletion acts argument by argument: a single argument is kept exactly when its name is not deleted, and deletion distributes over concatenation, so the kept arguments keep their order |
| Constructors.DownPaymentArgs | Mortgage.py:254-256 | the new arguments: total and down_payment gone, the other keys with their values, and loan_size as the last argument with the given value |
| Constructors.DownPaymentArgsOrder | Mortgage.py:254-256 | the new arguments keep the caller's order: for a list split as a + b, what survives of a comes first, ahead of what b yields, and an empty list yields loan_size alone |
| Constructors.Difference | Mortgage.py:254 | total − down_payment, as a number equal to the difference of the two amounts |
| Constructors.FromDownPaymentAndTotal | Mortgage.py:227-258 | the checks in the source's order: both keys required; loan_size forbidden; then a total that is not a positive number is an invalid total, else a down payment that is not a positive number is an invalid down payment, else a down payment not below the total is rejected as such. Together these fail exactly when the price split is invalid. On a valid split the result is the constructor run on the new arguments with loan size total − down_payment. On success the loan size is that difference and the other supplied quantities pass through |
| Constructors.DownPaymentScenario | Mortgage.py:227-258 | price 300000 with 60000 down, 4 % over 360 months, gives a loan of 240000 with the closed-form payment and no warning |

## Left out

- Floating-point rounding: arithmetic is exact. The model cannot show where
  float rounding would make, for example, the last balance slightly non-zero.
- Float exceptions of `(1 + rate/12)**n` are outside the exact-real model:
  the power can overflow, raising OverflowError, and 1 + rate/12 rounds to
  1.0 for a validated rate below about 1e-15. The next three lines name the
  members this affects.
- Amortization.InterestForMonth, Amortization.PrincipalForMonth: they fail
  only on a bad month. The source raises OverflowError at Mortgage.py:130
  for month 10**6 of a 4 % loan, since (1 + 0.04/12)^999999 ≈ e^3328.
- Solvers.PaymentFrom, Resolver.ClosedFormCasesBalanced: the payment case
  always succeeds. The source raises in two cases:
  - OverflowError at Mortgage.py:173 for loan_size=1000,
    interest_rate=0.99, num_months=9000, since 1.0825^9000 ≈ e^713;
  - ZeroDivisionError there when 1 + rate/12 rounds to 1.0.
- Solvers.PrincipalFrom: the derived size is positive. When 1 + rate/12
  rounds to 1.0, Mortgage.py:178 returns 0.0.
- `math.log` (Mortgage.py:183) is a function parameter. Two error cases are
  modelled: a non-positive argument is a math-domain error, and
  log(1 + r) returning 0 makes the division fail. The log law is assumed by
  `Solvers.MonthsRoundTrip` only at the two points it needs.
- SciPy's `newton` and `bisect` (Mortgage.py:201-218) are function
  parameters that report a root and whether they converged. The Newton
  iteration itself is not modelled. Nor are `bisect`'s own exceptions, such
  as a ValueError when f(0) and f(1) have the same sign.
- RatePoly.SolvedRateReproducesPayment: holds only when the root finder's
  answer is a positive genuine root, because the finders are parameters
  whose output is not constrained.
- Resolver.DerivedRateReproducesPayment: same condition, same reason.
- Constructors.LimitBreakeven: same condition, same reason.
- Dates in `amortization_schedule` (Mortgage.py:81-94) are not modelled: the
  month labels, the `start_year`/`start_month` guard (which raises only when
  both are non-ints) and the `date` arithmetic. The schedule is modelled as
  its numeric columns. The `Month` and `Payment` columns are omitted, being
  a range and a constant.
- The pandas DataFrame itself, plotting, and the `print` calls in
  `limit_on_interest_payed` are output only.
- The source's `check_down_payment_and_total` (Mortgage.py:261-262) has no
  body and no colon, so the module as written does not parse. The model
  treats that line as absent.
- A Python `bool` counts as an `int` for `isinstance`. The model has no bool
  value, so `True` supplied as num_months is not represented.
- Values are classified only as int, float or other, as the source's
  `isinstance` tests do. A subclass of float, such as `numpy.float64`, is a
  float, and a subclass of int is an int. A type outside both hierarchies
  is "other": a numpy integer scalar or a `Decimal`. The model has no
  separate subclass values.
- Params.Validate: its "accepts exactly" holds over finite values only.
  NaN fails every comparison, so the source's `<= 0` and `>= 1` tests let
  `interest_rate=nan` through, and infinite amounts pass too. Values are
  exact reals in the model, so no NaN or infinity exists in it.
- Warnings issued before an exception: the validator warns about an unknown
  key (Mortgage.py:307) before a later key can raise, and
  `from_down_payment_and_total` warns (Mortgage.py:234) before its
  `raise` of the warning's `None` result raises a TypeError. A `Failure`
  carries only the error, so those warnings are not part of the model.
- Amortization.OwnershipColumn: requires a non-zero loan size, where the
  source would divide by zero. A validated loan always has a positive loan
  size.

=== FILE: amortization.dfy ===
/** The amortization engine: per-month split of the payment
    (`interest_payed_per_month`, `principal_payed_per_month`), the totals, and
    the derived columns of `amortization_schedule` (Mortgage.py:105-140). */
module Amortization {
  import opened RealArith
  import opened Results
  import opened Params
  import opened Solvers

  /** The four fields a calculator instance holds once constructed. The term is
      an int because a derived term is the truncation of a quotient of two
      logarithms, and with `math.log` a parameter nothing keeps it from being
      negative. */
  datatype Loan = Loan(loanSize: real, interestRate: real, monthlyPayment: real, numMonths: int)

  /** Interest part of month m's payment: (P r - pay)(1 + r)^(m-1) + pay with
      r = rate / 12. The source writes P rate / 12, the same real number. */
  function Interest(loan: Loan, m: int): real
    requires m >= 1
  {
    (loan.loanSize * MonthlyRate(loan.interestRate) - loan.monthlyPayment)
      * Pow(1.0 + MonthlyRate(loan.interestRate), m - 1) + loan.monthlyPayment
  }

  function Principal(loan: Loan, m: int): real
    requires m >= 1
  {
    loan.monthlyPayment - Interest(loan, m)
  }

  /** Principal repaid over the first k months. */
  function PrincipalRepaid(loan: Loan, k: nat): real
  {
    if k == 0 then 0.0 else PrincipalRepaid(loan, k - 1) + Principal(loan, k)
  }

  /** The outstanding balance after k months. */
  function BalanceAfter(loan: Loan, k: nat): real
  {
    loan.loanSize - PrincipalRepaid(loan, k)
  }

  /** The principal repaid grows geometrically: after k months it is
      (pay - P r)(1 + (1+r) + ... + (1+r)^(k-1)). */
  lemma {:induction false} PrincipalRepaidClosedForm(loan: Loan, k: nat)
    ensures PrincipalRepaid(loan, k)
         == (loan.monthlyPayment - loan.loanSize * MonthlyRate(loan.interestRate))
            * GeomSum(1.0 + MonthlyRate(loan.interestRate), k)
  {
    if k > 0 {
      PrincipalRepaidClosedForm(loan, k - 1);
      var r := MonthlyRate(loan.interestRate);
      var d := loan.monthlyPayment - loan.loanSize * r;
      var p := Pow(1.0 + r, k - 1);
      assert loan.loanSize * loan.interestRate / 12.0 == loan.loanSize * r;
      assert Principal(loan, k) == d * p;
      assert d * GeomSum(1.0 + r, k) == d * GeomSum(1.0 + r, k - 1) + d * p;
    }
  }

  /** The balance after k months in closed form: P - (pay - P r) g_k. */
  lemma BalanceClosedForm(loan: Loan, k: nat)
    ensures BalanceAfter(loan, k)
         == loan.loanSize - (loan.monthlyPayment - loan.loanSize * MonthlyRate(loan.interestRate))
            * GeomSum(1.0 + MonthlyRate(loan.interestRate), k)
  {
    PrincipalRepaidClosedForm(loan, k);
  }

  /** The geometric sum in the monthly rate: r (1 + (1+r) + ... + (1+r)^(m-1)) = (1+r)^m - 1. */
  lemma GeomSumInRate(r: real, m: nat)
    ensures r * GeomSum(1.0 + r, m) == Pow(1.0 + r, m) - 1.0
  {
    GeomSumClosedForm(1.0 + r, m);
    assert 1.0 + r - 1.0 == r;
  }

  /** The algebra behind InterestOnBalance, over plain reals: with
      r g = p - 1 and a balance P - (pay - P r) g, the interest formula
      (P r - pay) p + pay is r times the balance. */
  lemma InterestAlgebra(loanSize: real, r: real, pay: real, p: real, g: real, balance: real)
    requires r * g == p - 1.0 && balance == loanSize - (pay - loanSize * r) * g
    ensures (loanSize * r - pay) * p + pay == r * balance
  {
    var d := pay - loanSize * r;
    assert d * (r * g) == d * (p - 1.0);
    assert r * (d * g) == d * (r * g);
  }

  /** Each month's interest is the monthly rate times the balance outstanding
      at the start of that month. */
  lemma InterestOnBalance(loan: Loan, m: int)
    requires m >= 1
    ensures Interest(loan, m) == MonthlyRate(loan.interestRate) * BalanceAfter(loan, m - 1)
  {
    var r, pay := MonthlyRate(loan.interestRate), loan.monthlyPayment;
    var g, p := GeomSum(1.0 + r, m - 1), Pow(1.0 + r, m - 1);
    var balance, interest := BalanceAfter(loan, m - 1), Interest(loan, m);
    assert interest == (loan.loanSize * r - pay) * p + pay;
    assert balance == loan.loanSize - (pay - loan.loanSize * r) * g by {
      BalanceClosedForm(loan, m - 1);
    }
    assert r * g == p - 1.0 by {
      GeomSumInRate(r, m - 1);
    }
    InterestAlgebra(loan.loanSize, r, pay, p, g, balance);
    assert interest == r * balance;
  }

  predicate IsMonth(month: Value)
  {
    month.IntV? && month.i >= 1
  }

  /** `interest_payed_per_month`: raises unless the month is an int >= 1. */
  function InterestForMonth(loan: Loan, month: Value): (r: Result<real, Error>)
    ensures r.Failure? <==> !IsMonth(month)
    ensures r.Failure? ==> r.error == InvalidMonth
    ensures r.Success? ==> r.value == MonthlyRate(loan.interestRate) * BalanceAfter(loan, month.i - 1)
    ensures month == IntV(1) ==> r == Success(loan.loanSize * MonthlyRate(loan.interestRate))
  {
    if !IsMonth(month) then Failure(InvalidMonth)
    else
      InterestOnBalance(loan, month.i);
      assert month.i == 1 ==> Interest(loan, 1) == loan.loanSize * MonthlyRate(loan.interestRate);
      Success(Interest(loan, month.i))
  }

  /** `principal_payed_per_month`: the rest of the payment. */
  function PrincipalForMonth(loan: Loan, month: Value): (r: Result<real, Error>)
    ensures r.Failure? <==> !IsMonth(month)
    ensures r.Failure? ==> r.error == InvalidMonth
    ensures r.Success? ==> r.value + InterestForMonth(loan, month).value == loan.monthlyPayment
    ensures r.Success? ==> BalanceAfter(loan, month.i) == BalanceAfter(loan, month.i - 1) - r.value
  {
    if !IsMonth(month) then Failure(InvalidMonth)
    else Success(Principal(loan, month.i))
  }

  function TotalPaidToLender(loan: Loan): real
  {
    loan.monthlyPayment * loan.numMonths as real
  }

  function TotalInterestPaid(loan: Loan): real
  {
    TotalPaidToLender(loan) - loan.loanSize
  }

  /** Number of schedule rows: `range(1, num_months + 1)` is empty for a
      term below one. */
  function Months(loan: Loan): nat
  {
    if loan.numMonths > 0 then loan.numMonths else 0
  }

  function Sum(s: seq<real>): real
  {
    if |s| == 0 then 0.0 else Sum(s[..|s| - 1]) + s[|s| - 1]
  }

  /** pandas' `cumsum`: entry i is the sum of the first i + 1 entries. */
  function CumSum(s: seq<real>): seq<real>
  {
    seq(|s|, i requires 0 <= i < |s| => Sum(s[..i + 1]))
  }

  function PrincipalColumn(loan: Loan): seq<real>
  {
    seq(Months(loan), i requires 0 <= i < Months(loan) => Principal(loan, i + 1))
  }

  function InterestColumn(loan: Loan): seq<real>
  {
    seq(Months(loan), i requires 0 <= i < Months(loan) => Interest(loan, i + 1))
  }

  /** Balance = loan size - cumsum(Principal). */
  function BalanceColumn(loan: Loan): seq<real>
  {
    var c := CumSum(PrincipalColumn(loan));
    seq(|c|, i requires 0 <= i < |c| => loan.loanSize - c[i])
  }

  /** Total Interest = cumsum(Interest). */
  function TotalInterestColumn(loan: Loan): seq<real>
  {
    CumSum(InterestColumn(loan))
  }

  /** % ownership = 100 (1 - Balance / loan size). */
  function OwnershipColumn(loan: Loan): seq<real>
    requires loan.loanSize != 0.0
  {
    var b := BalanceColumn(loan);
    seq(|b|, i requires 0 <= i < |b| => 100.0 * (1.0 - b[i] / loan.loanSize))
  }

  lemma {:induction false} SumPrincipalColumn(loan: Loan, k: nat)
    requires k <= Months(loan)
    ensures Sum(PrincipalColumn(loan)[..k]) == PrincipalRepaid(loan, k)
  {
    if k > 0 {
      var col := PrincipalColumn(loan);
      assert col[..k][..k - 1] == col[..k - 1];
      SumPrincipalColumn(loan, k - 1);
    }
  }

  /** Interest paid over the first k months: k payments less the principal they repaid. */
  function InterestPaidThrough(loan: Loan, k: nat): real
  {
    k as real * loan.monthlyPayment - PrincipalRepaid(loan, k)
  }

  lemma {:induction false} SumInterestColumn(loan: Loan, k: nat)
    requires k <= Months(loan)
    ensures Sum(InterestColumn(loan)[..k]) == InterestPaidThrough(loan, k)
  {
    if k > 0 {
      var col := InterestColumn(loan);
      assert col[..k][..k - 1] == col[..k - 1];
      SumInterestColumn(loan, k - 1);
    }
  }

  /** The Balance column is the outstanding balance after each month. */
  lemma BalanceColumnIsBalance(loan: Loan)
    ensures |BalanceColumn(loan)| == Months(loan)
    ensures forall i :: 0 <= i < Months(loan) ==> BalanceColumn(loan)[i] == BalanceAfter(loan, i + 1)
  {
    forall i | 0 <= i < Months(loan)
      ensures BalanceColumn(loan)[i] == BalanceAfter(loan, i + 1)
    {
      SumPrincipalColumn(loan, i + 1);
    }
  }

  /** A step for `ScheduleConservation`: by the definition of
      `InterestPaidThrough`, interest paid plus principal repaid through
      month k is k payments. */
  lemma ConservationThrough(loan: Loan, k: nat)
    ensures InterestPaidThrough(loan, k) + (loan.loanSize - BalanceAfter(loan, k)) == k as real * loan.monthlyPayment
  {
  }

  /** Conservation: after every month, the interest paid so far plus the
      principal repaid so far is exactly the payments made so far. */
  lemma ScheduleConservation(loan: Loan)
    ensures |TotalInterestColumn(loan)| == |BalanceColumn(loan)| == Months(loan)
    ensures forall i :: 0 <= i < Months(loan) ==>
      TotalInterestColumn(loan)[i] + (loan.loanSize - BalanceColumn(loan)[i])
        == (i + 1) as real * loan.monthlyPayment
  {
    BalanceColumnIsBalance(loan);
    TotalInterestEntries(loan);
    forall i | 0 <= i < Months(loan)
      ensures TotalInterestColumn(loan)[i] + (loan.loanSize - BalanceColumn(loan)[i])
        == (i + 1) as real * loan.monthlyPayment
    {
      ConservationThrough(loan, i + 1);
    }
  }

  /** A loan whose payment is the closed-form payment for its size, rate and
      term, as the two closed-form cases of the constructor produce. */
  predicate Balanced(loan: Loan)
  {
    loan.numMonths >= 1 && loan.interestRate > 0.0 && loan.loanSize > 0.0
    && loan.monthlyPayment == PaymentFrom(loan.loanSize, loan.interestRate, loan.numMonths)
  }

  /** The algebra behind BalanceExhausted: with r g = q - 1 and the annuity
      identity pay (q - 1) = P r q, the principal repaid (pay - P r) g is P. */
  lemma ExhaustionAlgebra(loanSize: real, r: real, pay: real, q: real, g: real)
    requires r != 0.0 && r * g == q - 1.0 && pay * (q - 1.0) == loanSize * r * q
    ensures (pay - loanSize * r) * g == loanSize
  {
    var d := pay - loanSize * r;
    assert r * (d * g) == d * (r * g);
    assert d * (q - 1.0) == loanSize * r;
    assert (d * g) * r == loanSize * r;
  }

  /** A balanced loan is exactly paid off after its last month. */
  lemma BalanceExhausted(loan: Loan)
    requires Balanced(loan)
    ensures BalanceAfter(loan, loan.numMonths) == 0.0
  {
    var n := loan.numMonths;
    var r := MonthlyRate(loan.interestRate);
    var q, g := Growth(loan.interestRate, n), GeomSum(1.0 + r, n);
    assert Annuity(loan.loanSize, loan.monthlyPayment, loan.interestRate, n);
    assert loan.monthlyPayment * (q - 1.0) == loan.loanSize * r * q;
    GeomSumClosedForm(1.0 + r, n);
    assert (1.0 + r - 1.0) * g == q - 1.0;
    assert r * g == q - 1.0;
    ExhaustionAlgebra(loan.loanSize, r, loan.monthlyPayment, q, g);
    PrincipalRepaidClosedForm(loan, n);
  }

  /** Hence the last Balance entry is 0, ownership reaches 100%, and the last
      Total Interest entry equals `total_interest_payed()`. */
  lemma ScheduleEndsPaidOff(loan: Loan)
    requires Balanced(loan)
    ensures loan.loanSize != 0.0 ==> OwnershipColumn(loan)[loan.numMonths - 1] == 100.0
    ensures BalanceColumn(loan)[loan.numMonths - 1] == 0.0
    ensures TotalInterestColumn(loan)[loan.numMonths - 1] == TotalInterestPaid(loan)
  {
    BalanceExhausted(loan);
    BalanceColumnIsBalance(loan);
    ScheduleConservation(loan);
  }

  /** With a payment at least the first month's interest, principal portions
      are never negative, so the balance never grows. */
  lemma BalanceNonIncreasing(loan: Loan, a: nat, b: nat)
    requires loan.interestRate > -12.0 && a <= b
    requires loan.monthlyPayment >= loan.loanSize * MonthlyRate(loan.interestRate)
    ensures BalanceAfter(loan, b) <= BalanceAfter(loan, a)
  {
    var r := MonthlyRate(loan.interestRate);
    var d := loan.monthlyPayment - loan.loanSize * r;
    var ga, gb := GeomSum(1.0 + r, a), GeomSum(1.0 + r, b);
    PrincipalRepaidClosedForm(loan, a);
    PrincipalRepaidClosedForm(loan, b);
    GeomSumMonotone(1.0 + r, a, b);
    assert d * gb - d * ga == d * (gb - ga);
  }

  lemma OwnershipEntry(loan: Loan, i: nat)
    requires loan.loanSize != 0.0 && i < Months(loan)
    ensures OwnershipColumn(loan)[i] == 100.0 * (1.0 - BalanceAfter(loan, i + 1) / loan.loanSize)
  {
    BalanceColumnIsBalance(loan);
  }

  lemma OwnershipOrder(loanSize: real, bi: real, bj: real)
    requires loanSize > 0.0 && bj <= bi
    ensures 100.0 * (1.0 - bi / loanSize) <= 100.0 * (1.0 - bj / loanSize)
  {
    assert bi / loanSize - bj / loanSize == (bi - bj) / loanSize;
  }

  /** Hence % ownership never decreases. */
  lemma OwnershipNonDecreasing(loan: Loan)
    requires loan.loanSize > 0.0 && loan.interestRate > -12.0
    requires loan.monthlyPayment >= loan.loanSize * MonthlyRate(loan.interestRate)
    ensures forall i, j :: 0 <= i <= j < Months(loan) ==> OwnershipColumn(loan)[i] <= OwnershipColumn(loan)[j]
  {
    forall i, j | 0 <= i <= j < Months(loan)
      ensures OwnershipColumn(loan)[i] <= OwnershipColumn(loan)[j]
    {
      OwnershipEntry(loan, i);
      OwnershipEntry(loan, j);
      BalanceNonIncreasing(loan, i + 1, j + 1);
      OwnershipOrder(loan.loanSize, BalanceAfter(loan, i + 1), BalanceAfter(loan, j + 1));
    }
  }

  /** On a balanced loan the balance stays non-negative through the term. */
  lemma BalanceNonNegative(loan: Loan, k: nat)
    requires Balanced(loan) && k <= loan.numMonths
    ensures BalanceAfter(loan, k) >= 0.0
  {
    BalanceExhausted(loan);
    BalanceNonIncreasing(loan, k, loan.numMonths);
  }

  /** On a balanced loan no month's interest is negative, so the Total
      Interest column never decreases. */
  lemma TotalInterestNonDecreasing(loan: Loan)
    requires Balanced(loan)
    ensures forall i, j :: 0 <= i <= j < Months(loan) ==>
      TotalInterestColumn(loan)[i] <= TotalInterestColumn(loan)[j]
  {
    TotalInterestEntries(loan);
    forall i, j | 0 <= i <= j < Months(loan)
      ensures TotalInterestColumn(loan)[i] <= TotalInterestColumn(loan)[j]
    {
      InterestPaidGrows(loan, i + 1, j + 1);
    }
  }

  /** Row i of the Total Interest column is the interest paid through month i + 1. */
  lemma TotalInterestEntries(loan: Loan)
    ensures |TotalInterestColumn(loan)| == Months(loan)
    ensures forall i :: 0 <= i < Months(loan) ==> TotalInterestColumn(loan)[i] == InterestPaidThrough(loan, i + 1)
  {
    forall i | 0 <= i < Months(loan)
      ensures TotalInterestColumn(loan)[i] == InterestPaidThrough(loan, i + 1)
    {
      SumInterestColumn(loan, i + 1);
    }
  }

  lemma {:induction false} InterestPaidGrows(loan: Loan, a: nat, b: nat)
    requires Balanced(loan) && a <= b <= loan.numMonths
    ensures InterestPaidThrough(loan, a) <= InterestPaidThrough(loan, b)
    decreases b
  {
    if a < b {
      InterestPaidGrows(loan, a, b - 1);
      assert Interest(loan, b) >= 0.0 by {
        InterestOnBalance(loan, b);
        BalanceNonNegative(loan, b - 1);
      }
      assert InterestPaidThrough(loan, b) == InterestPaidThrough(loan, b - 1) + Interest(loan, b);
    }
  }
}

=== FILE: arith.dfy ===
/** Exact real arithmetic that the loan formulas are built from. Python floats
    are modelled as Dafny reals, so the identities proved here hold exactly
    rather than up to rounding. */
module RealArith {

  /** `x ** n` for a non-negative integer exponent. */
  function Pow(x: real, n: nat): real
  {
    if n == 0 then 1.0 else x * Pow(x, n - 1)
  }

  lemma {:induction false} PowPositive(x: real, n: nat)
    requires x > 0.0
    ensures Pow(x, n) > 0.0
  {
    if n > 0 {
      PowPositive(x, n - 1);
      assert x * Pow(x, n - 1) > 0.0;
    }
  }

  lemma {:induction false} PowAboveOne(x: real, n: nat)
    requires x > 1.0 && n >= 1
    ensures Pow(x, n) > 1.0
  {
    if n > 1 {
      PowAboveOne(x, n - 1);
      var p := Pow(x, n - 1);
      assert x * p - p == (x - 1.0) * p;
      assert (x - 1.0) * p > 0.0;
    }
  }

  /** 1 + q + ... + q^(m-1). */
  function GeomSum(q: real, m: nat): real
  {
    if m == 0 then 0.0 else GeomSum(q, m - 1) + Pow(q, m - 1)
  }

  /** The geometric series in closed form, stated without division. */
  lemma {:induction false} GeomSumClosedForm(q: real, m: nat)
    ensures (q - 1.0) * GeomSum(q, m) == Pow(q, m) - 1.0
  {
    if m > 0 {
      GeomSumClosedForm(q, m - 1);
      var g, p := GeomSum(q, m - 1), Pow(q, m - 1);
      assert (q - 1.0) * (g + p) == (q - 1.0) * g + q * p - p;
    }
  }

  lemma {:induction false} GeomSumMonotone(q: real, a: nat, b: nat)
    requires q > 0.0 && a <= b
    ensures GeomSum(q, a) <= GeomSum(q, b)
    decreases b
  {
    if a < b {
      GeomSumMonotone(q, a, b - 1);
      PowPositive(q, b - 1);
    }
  }

  /** Python's `int(x)` on a float: truncation toward zero. */
  function TruncToInt(x: real): (k: int)
    ensures x >= 0.0 ==> 0 <= k && k as real <= x < k as real + 1.0
    ensures x < 0.0 ==> k <= 0 && k as real - 1.0 < x <= k as real
  {
    if x >= 0.0 then x.Floor else -((-x).Floor)
  }

  /** The binomial coefficient "n choose k", by Pascal's rule; it is zero
      when k exceeds n, as `scipy.special.comb` returns. */
  function Comb(n: nat, k: nat): nat
  {
    if k == 0 then 1
    else if n == 0 then 0
    else Comb(n - 1, k - 1) + Comb(n - 1, k)
  }

  lemma {:induction false} CombAboveN(n: nat, k: nat)
    requires k > n
    ensures Comb(n, k) == 0
  {
    if n > 0 {
      CombAboveN(n - 1, k - 1);
      CombAboveN(n - 1, k);
    }
  }

  lemma {:induction false} CombDiagonal(n: nat)
    ensures Comb(n, n) == 1
  {
    if n > 0 {
      CombDiagonal(n - 1);
      CombAboveN(n - 1, n);
    }
  }
}

=== FILE: constructors.dfy ===
/** The alternative constructors `limit_on_interest_payed` and
    `from_down_payment_and_total` (Mortgage.py:144-168, 227-258). */
module Constructors {
  import opened Results
  import opened Params
  import opened Poly
  import opened Solvers
  import opened RatePoly
  import opened Amortization
  import opened Resolver

  /** The arguments `limit_on_interest_payed` hands to the constructor. */
  function LimitArgs(loanSize: Value, pay: real, numMonths: Value): Kwargs
  {
    [Arg(LoanSize, loanSize), Arg(MonthlyPayment, FloatV(pay)), Arg(NumMonths, numMonths)]
  }

  lemma LimitArgsShape(loanSize: Value, pay: real, numMonths: Value)
    requires ArgValid(Arg(LoanSize, loanSize)) && ArgValid(Arg(NumMonths, numMonths)) && pay > 0.0
    ensures var kw := LimitArgs(loanSize, pay, numMonths);
      && AllValid(kw) && MissingCore(Keys(kw)) == 1 && InterestRate !in Keys(kw)
      && LoanSize in Keys(kw) && Lookup(kw, LoanSize) == loanSize
      && MonthlyPayment in Keys(kw) && Lookup(kw, MonthlyPayment) == FloatV(pay)
      && NumMonths in Keys(kw) && Lookup(kw, NumMonths) == numMonths
  {
    var kw := LimitArgs(loanSize, pay, numMonths);
    LookupFirst(kw, 0);
    LookupFirst(kw, 1);
    LookupFirst(kw, 2);
    KeysIndex(kw, InterestRate);
  }

  /** `limit_on_interest_payed`: the monthly payment that spends exactly
      `limit` in interest over the term, then the rate case of the
      constructor to find the rate at which that happens. */
  function LimitOnInterestPaid(loanSize: Value, numMonths: Value, limit: Value, num: Numerics): (r: Result<Resolution, Error>)
    ensures var v := Validate([Arg(LoanSize, loanSize), Arg(NumMonths, numMonths)]);
      v.Failure? ==> r == Failure(v.error)
    ensures (ArgValid(Arg(LoanSize, loanSize)) && ArgValid(Arg(NumMonths, numMonths))
             && (!IsNumber(limit) || Num(limit) < 0.0)) ==> r == Failure(InvalidLimit)
    ensures (ArgValid(Arg(LoanSize, loanSize)) && ArgValid(Arg(NumMonths, numMonths))
             && IsNumber(limit) && Num(limit) >= 0.0) ==>
      && r == Resolve(LimitArgs(loanSize, LimitPayment(loanSize, numMonths, limit), numMonths), num)
      && (r.Failure? ==> r.error == RootNotFound)
    ensures r.Failure? ==> r.error.InvalidParameter? || r.error == InvalidLimit || r.error == RootNotFound
    ensures r.Success? ==>
      IsNumber(loanSize) && IsNumber(limit) && numMonths.IntV?
      && r.value.loan.loanSize == Num(loanSize) && r.value.loan.numMonths == numMonths.i
      && TotalPaidToLender(r.value.loan) == Num(loanSize) + Num(limit)
      && TotalInterestPaid(r.value.loan) == Num(limit)
  {
    var given := [Arg(LoanSize, loanSize), Arg(NumMonths, numMonths)];
    var checked :- Validate(given);
    assert ArgValid(given[0]) && ArgValid(given[1]);
    if !IsNumber(limit) || Num(limit) < 0.0 then Failure(InvalidLimit)
    else
      var pay := LimitPayment(loanSize, numMonths, limit);
      LimitResolution(loanSize, numMonths, limit, num);
      Resolve(LimitArgs(loanSize, pay, numMonths), num)
  }

  /** The payment that spends the loan plus the limit over the term. */
  function LimitPayment(loanSize: Value, numMonths: Value, limit: Value): (pay: real)
    requires ArgValid(Arg(LoanSize, loanSize)) && ArgValid(Arg(NumMonths, numMonths))
    requires IsNumber(limit) && Num(limit) >= 0.0
    ensures pay > 0.0 && pay * numMonths.i as real == Num(loanSize) + Num(limit)
  {
    (Num(loanSize) + Num(limit)) / numMonths.i as real
  }

  /** What the rate case of the constructor yields on the arguments
      `limit_on_interest_payed` builds: either no root, or a loan whose
      payments total the loan plus exactly the limit. */
  lemma LimitResolution(loanSize: Value, numMonths: Value, limit: Value, num: Numerics)
    requires ArgValid(Arg(LoanSize, loanSize)) && ArgValid(Arg(NumMonths, numMonths))
    requires IsNumber(limit) && Num(limit) >= 0.0
    ensures var r := Resolve(LimitArgs(loanSize, LimitPayment(loanSize, numMonths, limit), numMonths), num);
      && (r.Failure? ==> r.error == RootNotFound)
      && (r.Success? ==>
            r.value.loan.loanSize == Num(loanSize) && r.value.loan.numMonths == numMonths.i
            && TotalPaidToLender(r.value.loan) == Num(loanSize) + Num(limit))
  {
    var pay := LimitPayment(loanSize, numMonths, limit);
    LimitArgsShape(loanSize, pay, numMonths);
    DerivedRateFallback(LimitArgs(loanSize, pay, numMonths), num);
  }

  /** A successful result whose rate is positive and, scaled to a monthly
      rate, a genuine root of the rate polynomial. */
  predicate FoundGenuineRate(r: Result<Resolution, Error>)
  {
    && r.Success? && r.value.loan.interestRate > 0.0 && r.value.loan.numMonths >= 1
    && Eval(RatePolyCoeffs(r.value.loan.loanSize, r.value.loan.monthlyPayment, r.value.loan.numMonths),
            r.value.loan.interestRate / 12.0) == 0.0
  }

  /** The breakeven rate: when the rate found is a genuine positive root, the
      closed-form payment at that rate, paid over the term, is the loan plus
      exactly the limit. */
  lemma LimitBreakeven(loanSize: Value, numMonths: Value, limit: Value, num: Numerics)
    ensures FoundGenuineRate(LimitOnInterestPaid(loanSize, numMonths, limit, num)) ==>
      IsNumber(limit) && BreaksEven(LimitOnInterestPaid(loanSize, numMonths, limit, num).value.loan, Num(limit))
  {
    if !FoundGenuineRate(LimitOnInterestPaid(loanSize, numMonths, limit, num)) {
      return;
    }
    assert ArgValid(Arg(LoanSize, loanSize)) && ArgValid(Arg(NumMonths, numMonths))
        && IsNumber(limit) && Num(limit) >= 0.0 by {
      var given := [Arg(LoanSize, loanSize), Arg(NumMonths, numMonths)];
      assert Validate(given).Success?;
      assert ArgValid(given[0]) && ArgValid(given[1]);
    }
    var pay := LimitPayment(loanSize, numMonths, limit);
    var kw := LimitArgs(loanSize, pay, numMonths);
    assert LimitOnInterestPaid(loanSize, numMonths, limit, num) == Resolve(kw, num);
    var loan := Resolve(kw, num).value.loan;
    LimitArgsShape(loanSize, pay, numMonths);
    LimitResolution(loanSize, numMonths, limit, num);
    assert TotalPaidToLender(loan) == loan.loanSize + Num(limit);
    assert Balanced(loan) by {
      DerivedRateReproducesPayment(kw, num);
    }
    BreakevenTotal(loan, Num(limit));
  }

  /** The closed-form payment at the loan's positive rate, paid every month
      of a term of at least one month, comes to the loan plus `limit`. */
  predicate BreaksEven(loan: Loan, limit: real)
  {
    && loan.numMonths >= 1 && loan.interestRate > 0.0
    && PaymentFrom(loan.loanSize, loan.interestRate, loan.numMonths) * loan.numMonths as real
       == loan.loanSize + limit
  }

  /** A balanced loan whose payments total P + limit breaks even at its rate. */
  lemma BreakevenTotal(loan: Loan, limit: real)
    requires Balanced(loan) && loan.numMonths >= 1 && TotalPaidToLender(loan) == loan.loanSize + limit
    ensures BreaksEven(loan, limit)
  {
  }

  const Total: string := "total"
  const DownPayment: string := "down_payment"

  /** The arguments without the given names, in their original order. */
  function RemoveNames(kw: Kwargs, names: set<string>): (r: Kwargs)
    ensures Keys(r) == Keys(kw) - names
    ensures forall k :: k in Keys(r) ==> Lookup(r, k) == Lookup(kw, k)
    decreases |kw|
  {
    if |kw| == 0 then []
    else if kw[0].name in names then RemoveNames(kw[1..], names)
    else
      var rest := RemoveNames(kw[1..], names);
      assert ([kw[0]] + rest)[1..] == rest;
      [kw[0]] + rest
  }

  /** `RemoveNames` filters argument by argument: it keeps an argument exactly
      when its name is not removed, and it distributes over concatenation, so
      the arguments it keeps stay in their original order. */
  lemma {:induction false} RemoveNamesConcat(a: Kwargs, b: Kwargs, names: set<string>)
    ensures RemoveNames(a + b, names) == RemoveNames(a, names) + RemoveNames(b, names)
    ensures |a| == 1 ==> RemoveNames(a, names) == if a[0].name in names then [] else a
    decreases |a|
  {
    if |a| == 0 {
      assert a + b == b;
    } else {
      assert RemoveNames(a + b, names) == RemoveNames(a, names) + RemoveNames(b, names) by {
        assert (a + b)[0] == a[0];
        assert (a + b)[1..] == a[1..] + b;
        RemoveNamesConcat(a[1..], b, names);
      }
      if |a| == 1 {
        assert RemoveNames(a, names) == if a[0].name in names then [] else a by {
          assert a[1..] == [];
          assert [a[0]] == a;
        }
      }
    }
  }

  /** The arguments handed on to the constructor: `total` and `down_payment`
      deleted, `loan_size` added last. */
  function DownPaymentArgs(kw: Kwargs, loanSize: Value): (r: Kwargs)
    requires LoanSize !in Keys(kw)
    ensures Keys(r) == Keys(kw) - {Total, DownPayment} + {LoanSize}
    ensures LoanSize in Keys(r) && Lookup(r, LoanSize) == loanSize
    ensures forall k :: k in Keys(kw) && k != Total && k != DownPayment ==> k in Keys(r) && Lookup(r, k) == Lookup(kw, k)
    ensures |r| >= 1 && r[|r| - 1] == Arg(LoanSize, loanSize)
  {
    var kept := RemoveNames(kw, {Total, DownPayment});
    KeysAppend(kept, Arg(LoanSize, loanSize));
    LookupAppend(kept, Arg(LoanSize, loanSize), LoanSize);
    assert forall k :: k in Keys(kept) ==> Lookup(kept + [Arg(LoanSize, loanSize)], k) == Lookup(kept, k) by {
      forall k | k in Keys(kept)
        ensures Lookup(kept + [Arg(LoanSize, loanSize)], k) == Lookup(kept, k)
      {
        LookupAppend(kept, Arg(LoanSize, loanSize), k);
      }
    }
    kept + [Arg(LoanSize, loanSize)]
  }

  /** The new arguments keep the caller's order: what survives of a prefix
      comes first, ahead of what the rest yields, and loan_size alone is what
      no arguments yield. */
  lemma DownPaymentArgsOrder(a: Kwargs, b: Kwargs, loanSize: Value)
    requires LoanSize !in Keys(a + b) && LoanSize !in Keys(b)
    ensures DownPaymentArgs(a + b, loanSize) == RemoveNames(a, {Total, DownPayment}) + DownPaymentArgs(b, loanSize)
    ensures DownPaymentArgs([], loanSize) == [Arg(LoanSize, loanSize)]
  {
    var names := {Total, DownPayment};
    var tail := [Arg(LoanSize, loanSize)];
    var ra, rb := RemoveNames(a, names), RemoveNames(b, names);
    assert DownPaymentArgs([], loanSize) == tail by {
      assert RemoveNames([], names) == [];
    }
    assert DownPaymentArgs(b, loanSize) == rb + tail;
    assert DownPaymentArgs(a + b, loanSize) == ra + (rb + tail) by {
      RemoveNamesConcat(a, b, names);
      AppendAssoc(ra, rb, tail);
    }
  }

  /** Concatenation of argument lists is associative. */
  lemma AppendAssoc(x: Kwargs, y: Kwargs, z: Kwargs)
    ensures (x + y) + z == x + (y + z)
  {
  }

  /** `total - down_payment`: an int when both are ints, a float otherwise. */
  function Difference(total: Value, down: Value): (d: Value)
    requires IsNumber(total) && IsNumber(down)
    ensures IsNumber(d) && Num(d) == Num(total) - Num(down)
  {
    if total.IntV? && down.IntV? then IntV(total.i - down.i)
    else FloatV(Num(total) - Num(down))
  }

  /** Both amounts numeric and positive, the down payment below the total. */
  predicate PriceSplitValid(total: Value, down: Value)
  {
    IsNumber(total) && Num(total) > 0.0 && IsNumber(down) && Num(down) > 0.0 && Num(down) < Num(total)
  }

  /** `from_down_payment_and_total`. */
  function FromDownPaymentAndTotal(kw: Kwargs, num: Numerics): (r: Result<Resolution, Error>)
    ensures Total !in Keys(kw) || DownPayment !in Keys(kw) ==> r == Failure(MissingTotalOrDownPayment)
    ensures Total in Keys(kw) && DownPayment in Keys(kw) && LoanSize in Keys(kw) ==> r == Failure(LoanSizeSupplied)
    ensures Total in Keys(kw) && DownPayment in Keys(kw) && LoanSize !in Keys(kw) ==>
      ((r.Failure? && r.error in {InvalidTotal, InvalidDownPayment, DownPaymentNotBelowTotal})
        <==> !PriceSplitValid(Lookup(kw, Total), Lookup(kw, DownPayment)))
    ensures Total in Keys(kw) && DownPayment in Keys(kw) && LoanSize !in Keys(kw) ==>
      var t, d := Lookup(kw, Total), Lookup(kw, DownPayment);
      && ((!IsNumber(t) || Num(t) <= 0.0) ==> r == Failure(InvalidTotal))
      && (IsNumber(t) && Num(t) > 0.0 && (!IsNumber(d) || Num(d) <= 0.0) ==> r == Failure(InvalidDownPayment))
      && ((IsNumber(t) && Num(t) > 0.0 && IsNumber(d) && Num(d) > 0.0 && Num(d) >= Num(t))
            ==> r == Failure(DownPaymentNotBelowTotal))
    ensures (Total in Keys(kw) && DownPayment in Keys(kw) && LoanSize !in Keys(kw)
             && PriceSplitValid(Lookup(kw, Total), Lookup(kw, DownPayment))) ==>
      r == Resolve(DownPaymentArgs(kw, Difference(Lookup(kw, Total), Lookup(kw, DownPayment))), num)
    ensures r.Success? ==>
      Total in Keys(kw) && DownPayment in Keys(kw) && LoanSize !in Keys(kw)
      && PriceSplitValid(Lookup(kw, Total), Lookup(kw, DownPayment))
      && r.value.loan.loanSize == Num(Lookup(kw, Total)) - Num(Lookup(kw, DownPayment))
    ensures r.Success? && InterestRate in Keys(kw) ==>
      Lookup(kw, InterestRate).FloatV? && r.value.loan.interestRate == Lookup(kw, InterestRate).x
    ensures r.Success? && MonthlyPayment in Keys(kw) ==>
      IsNumber(Lookup(kw, MonthlyPayment)) && r.value.loan.monthlyPayment == Num(Lookup(kw, MonthlyPayment))
    ensures r.Success? && NumMonths in Keys(kw) ==>
      Lookup(kw, NumMonths).IntV? && r.value.loan.numMonths == Lookup(kw, NumMonths).i
  {
    if Total !in Keys(kw) || DownPayment !in Keys(kw) then Failure(MissingTotalOrDownPayment)
    else if LoanSize in Keys(kw) then Failure(LoanSizeSupplied)
    else
      var total, down := Lookup(kw, Total), Lookup(kw, DownPayment);
      if !IsNumber(total) || Num(total) <= 0.0 then Failure(InvalidTotal)
      else if !IsNumber(down) || Num(down) <= 0.0 then Failure(InvalidDownPayment)
      else if Num(down) >= Num(total) then Failure(DownPaymentNotBelowTotal)
      else Resolve(DownPaymentArgs(kw, Difference(total, down)), num)
  }

  /** The arguments the down-payment example hands on: rate and term as
      given, then the derived loan size. */
  lemma DownPaymentScenarioArgs()
    ensures var kw := [Arg(Total, IntV(300000)), Arg(DownPayment, IntV(60000)),
                       Arg(InterestRate, FloatV(0.04)), Arg(NumMonths, IntV(360))];
      && Total in Keys(kw) && DownPayment in Keys(kw) && LoanSize !in Keys(kw)
      && Lookup(kw, Total) == IntV(300000) && Lookup(kw, DownPayment) == IntV(60000)
      && DownPaymentArgs(kw, IntV(240000))
         == [Arg(InterestRate, FloatV(0.04)), Arg(NumMonths, IntV(360)), Arg(LoanSize, IntV(240000))]
  {
    var kw := [Arg(Total, IntV(300000)), Arg(DownPayment, IntV(60000)),
               Arg(InterestRate, FloatV(0.04)), Arg(NumMonths, IntV(360))];
    KeysIndex(kw, Total);
    KeysIndex(kw, DownPayment);
    KeysIndex(kw, LoanSize);
    LookupFirst(kw, 0);
    LookupFirst(kw, 1);
    var names := {Total, DownPayment};
    assert kw[1..][1..] == kw[2..];
    assert kw[2..][1..] == [kw[3]];
    assert [kw[3]][1..] == [];
    assert RemoveNames([kw[3]], names) == [kw[3]];
    assert RemoveNames(kw[2..], names) == [kw[2]] + [kw[3]];
    assert RemoveNames(kw[1..], names) == RemoveNames(kw[2..], names);
    assert RemoveNames(kw, names) == [kw[2], kw[3]];
  }

  /** Rate, term and loan size supplied: the payment case, with no warning. */
  lemma DownPaymentScenarioResolves(num: Numerics)
    ensures Resolve([Arg(InterestRate, FloatV(0.04)), Arg(NumMonths, IntV(360)), Arg(LoanSize, IntV(240000))], num)
      == Success(Resolution(Loan(240000.0, 0.04, PaymentFrom(240000.0, 0.04, 360), 360), []))
  {
    var passed := [Arg(InterestRate, FloatV(0.04)), Arg(NumMonths, IntV(360)), Arg(LoanSize, IntV(240000))];
    KeysIndex(passed, MonthlyPayment);
    KeysIndex(passed, InterestRate);
    KeysIndex(passed, NumMonths);
    KeysIndex(passed, LoanSize);
    assert passed[0].name == InterestRate && passed[1].name == NumMonths && passed[2].name == LoanSize;
    assert CaseOf(Keys(passed)) == DerivePayment;
    assert AllValid(passed);
    ValidateCoreOnly(passed);
    LookupFirst(passed, 0);
    LookupFirst(passed, 1);
    LookupFirst(passed, 2);
  }

  /** A house costing 300000 with 60000 down, at 4% over 360 months, is a
      loan of 240000 whose payment the closed form fixes; 4% lies inside the
      quiet band, so no warning is raised. */
  lemma DownPaymentScenario(num: Numerics)
    ensures var kw := [Arg(Total, IntV(300000)), Arg(DownPayment, IntV(60000)),
                       Arg(InterestRate, FloatV(0.04)), Arg(NumMonths, IntV(360))];
      FromDownPaymentAndTotal(kw, num)
        == Success(Resolution(Loan(240000.0, 0.04, PaymentFrom(240000.0, 0.04, 360), 360), []))
  {
    DownPaymentScenarioArgs();
    DownPaymentScenarioResolves(num);
    assert Difference(IntV(300000), IntV(60000)) == IntV(240000);
  }
}

=== FILE: params.dfy ===
/** Keyword arguments, diagnostics and errors of `FixedRateCalculator`, and the
    parameter validator `_check_parameter_validity` (Mortgage.py:267-307). */
module Params {
  import opened Results

  /** A Python argument value, tagged by the type the validator inspects.
      `Other` is any value that is neither an int nor a float. */
  datatype Value = IntV(i: int) | FloatV(x: real) | Other

  /** One keyword argument. A call's keyword arguments are a sequence, in the
      order they were passed, because the validator stops at the first bad one. */
  datatype Arg = Arg(name: string, value: Value)

  type Kwargs = seq<Arg>

  const LoanSize: string := "loan_size"
  const InterestRate: string := "interest_rate"
  const MonthlyPayment: string := "monthly_payment"
  const NumMonths: string := "num_months"

  /** The four loan quantities the calculator knows about. */
  predicate IsCoreName(name: string)
  {
    name == LoanSize || name == InterestRate || name == MonthlyPayment || name == NumMonths
  }

  /** Non-fatal diagnostics, in the order the source would emit them. */
  datatype Warning =
    | UnusedParameter(name: string)
    | NegativeRate
    | HighRate
    | LowRate

  /** The exceptions the calculator raises. */
  datatype Error =
    | InvalidParameter(name: string)   // a core argument fails its type/range check
    | InsufficientParameters           // fewer than three core arguments
    | MathDomainError                  // `math.log` of a non-positive number
    | DivisionByZero                   // `log(1 + r)` evaluated to zero
    | RootNotFound                     // Newton and bisection both failed
    | InvalidMonth                     // a month that is not an int >= 1
    | InvalidLimit                     // a negative or non-numeric interest cap
    | MissingTotalOrDownPayment
    | LoanSizeSupplied                 // `raise warnings.warn(...)` raises a TypeError
    | InvalidTotal
    | InvalidDownPayment
    | DownPaymentNotBelowTotal

  predicate IsNumber(v: Value)
  {
    v.IntV? || v.FloatV?
  }

  /** The numeric value of an int or a float. */
  function Num(v: Value): real
    requires IsNumber(v)
  {
    if v.IntV? then v.i as real else v.x
  }

  /** The per-key rule the validator applies. */
  predicate ArgValid(a: Arg)
  {
    if a.name == LoanSize || a.name == MonthlyPayment then
      IsNumber(a.value) && Num(a.value) > 0.0
    else if a.name == InterestRate then
      a.value.FloatV? && 0.0 < a.value.x < 1.0
    else if a.name == NumMonths then
      a.value.IntV? && a.value.i >= 1
    else
      true
  }

  predicate AllValid(kw: Kwargs)
  {
    forall i :: 0 <= i < |kw| ==> ArgValid(kw[i])
  }

  function Keys(kw: Kwargs): set<string>
  {
    if |kw| == 0 then {} else {kw[0].name} + Keys(kw[1..])
  }

  lemma {:induction false} KeysIndex(kw: Kwargs, name: string)
    ensures name in Keys(kw) <==> exists i :: 0 <= i < |kw| && kw[i].name == name
    decreases |kw|
  {
    if |kw| > 0 {
      KeysIndex(kw[1..], name);
      if name in Keys(kw[1..]) {
        var i :| 0 <= i < |kw| - 1 && kw[1..][i].name == name;
        assert kw[i + 1].name == name;
      }
      if exists i :: 0 <= i < |kw| && kw[i].name == name {
        var i :| 0 <= i < |kw| && kw[i].name == name;
        if i > 0 {
          assert kw[1..][i - 1].name == name;
        }
      }
    }
  }

  /** `kwargs[name]`: the value passed under a name. */
  function Lookup(kw: Kwargs, name: string): Value
    requires name in Keys(kw)
  {
    if kw[0].name == name then kw[0].value else Lookup(kw[1..], name)
  }

  /** Looking a name up finds its first occurrence. */
  lemma {:induction false} LookupFirst(kw: Kwargs, i: nat)
    requires i < |kw|
    requires forall j :: 0 <= j < i ==> kw[j].name != kw[i].name
    ensures kw[i].name in Keys(kw) && Lookup(kw, kw[i].name) == kw[i].value
    decreases i
  {
    if i > 0 {
      assert forall j :: 0 <= j < |kw| - 1 ==> kw[1..][j] == kw[j + 1];
      LookupFirst(kw[1..], i - 1);
    }
  }

  lemma {:induction false} KeysAppend(kw: Kwargs, a: Arg)
    ensures Keys(kw + [a]) == Keys(kw) + {a.name}
    decreases |kw|
  {
    if |kw| > 0 {
      assert (kw + [a])[1..] == kw[1..] + [a];
      KeysAppend(kw[1..], a);
    } else {
      assert ([] + [a])[1..] == [];
    }
  }

  /** Appending an argument for a new name leaves every other lookup alone. */
  lemma {:induction false} LookupAppend(kw: Kwargs, a: Arg, name: string)
    requires name in Keys(kw) || name == a.name
    ensures name in Keys(kw + [a])
    ensures Lookup(kw + [a], name) == if name in Keys(kw) then Lookup(kw, name) else a.value
    decreases |kw|
  {
    KeysAppend(kw, a);
    if |kw| > 0 {
      assert (kw + [a])[1..] == kw[1..] + [a];
      KeysAppend(kw[1..], a);
      if kw[0].name != name {
        LookupAppend(kw[1..], a, name);
      }
    } else {
      assert ([] + [a])[1..] == [];
    }
  }

  /** The validator: walks the arguments in order, raises on the first core
      argument that fails its rule, and warns about every other name. */
  function Validate(kw: Kwargs): (r: Result<seq<Warning>, Error>)
    ensures r.Success? <==> AllValid(kw)
    ensures r.Failure? ==>
      exists i :: 0 <= i < |kw| && !ArgValid(kw[i]) && r.error == InvalidParameter(kw[i].name)
        && forall j :: 0 <= j < i ==> ArgValid(kw[j])
    ensures r.Success? ==>
      forall w :: w in r.value ==> w.UnusedParameter? && w.name in Keys(kw) && !IsCoreName(w.name)
    ensures r.Success? ==>
      forall i :: 0 <= i < |kw| && !IsCoreName(kw[i].name) ==> UnusedParameter(kw[i].name) in r.value
    decreases |kw|
  {
    if |kw| == 0 then Success([])
    else if !ArgValid(kw[0]) then Failure(InvalidParameter(kw[0].name))
    else
      var rest := Validate(kw[1..]);
      assert forall i :: 1 <= i < |kw| ==> kw[i] == kw[1..][i - 1];
      match rest
      case Failure(e) => Failure(e)
      case Success(ws) =>
        Success((if IsCoreName(kw[0].name) then [] else [UnusedParameter(kw[0].name)]) + ws)
  }

  /** Validation warns argument by argument: one unused-parameter warning
      for each argument that is not a core quantity, none for a core one, and
      the warnings of a concatenation are those of its parts in order. So
      every unknown keyword is warned about exactly once, in argument order. */
  lemma {:induction false} ValidateConcat(a: Kwargs, b: Kwargs)
    requires AllValid(a + b)
    ensures Validate(a).Success? && Validate(b).Success?
    ensures Validate(a + b).Success? && Validate(a + b).value == Validate(a).value + Validate(b).value
    ensures |a| == 1 ==>
      Validate(a).value == if IsCoreName(a[0].name) then [] else [UnusedParameter(a[0].name)]
    decreases |a|
  {
    assert AllValid(a) && AllValid(b) by {
      assert forall i :: 0 <= i < |a| ==> a[i] == (a + b)[i];
      assert forall i :: 0 <= i < |b| ==> b[i] == (a + b)[|a| + i];
    }
    if |a| == 0 {
      assert a + b == b;
    } else {
      assert Validate(a + b).value == Validate(a).value + Validate(b).value by {
        assert (a + b)[0] == a[0];
        assert (a + b)[1..] == a[1..] + b;
        ValidateConcat(a[1..], b);
        var head: seq<Warning> := if IsCoreName(a[0].name) then [] else [UnusedParameter(a[0].name)];
        assert Validate(a).value == head + Validate(a[1..]).value;
        assert Validate(a + b).value == head + (Validate(a[1..]).value + Validate(b).value);
      }
      if |a| == 1 {
        assert Validate(a).value == if IsCoreName(a[0].name) then [] else [UnusedParameter(a[0].name)] by {
          assert a[1..] == [];
          assert Validate(a[1..]).value == [];
        }
      }
    }
  }

  /** Valid arguments that are all core quantities produce no warning. */
  lemma {:induction false} ValidateCoreOnly(kw: Kwargs)
    requires AllValid(kw)
    requires forall i :: 0 <= i < |kw| ==> IsCoreName(kw[i].name)
    ensures Validate(kw) == Success([])
    decreases |kw|
  {
    if |kw| > 0 {
      assert forall i :: 0 <= i < |kw| - 1 ==> kw[1..][i] == kw[i + 1];
      ValidateCoreOnly(kw[1..]);
      assert ArgValid(kw[0]) && IsCoreName(kw[0].name);
      var none: seq<Warning> := [];
      assert none + none == none;
    }
  }

  /** After successful validation, every core value looked up has passed its
      rule. */
  lemma {:induction false} LookupValid(kw: Kwargs, name: string)
    requires AllValid(kw) && name in Keys(kw)
    ensures ArgValid(Arg(name, Lookup(kw, name)))
  {
    if kw[0].name != name {
      assert forall i :: 0 <= i < |kw| - 1 ==> kw[1..][i] == kw[i + 1];
      LookupValid(kw[1..], name);
    }
  }

  /** A validated positive amount (`loan_size` or `monthly_payment`). */
  function AmountArg(kw: Kwargs, name: string): (x: real)
    requires AllValid(kw) && name in Keys(kw) && (name == LoanSize || name == MonthlyPayment)
    ensures IsNumber(Lookup(kw, name)) && x == Num(Lookup(kw, name)) && x > 0.0
  {
    LookupValid(kw, name);
    Num(Lookup(kw, name))
  }

  /** The validated `interest_rate`. */
  function RateArg(kw: Kwargs): (x: real)
    requires AllValid(kw) && InterestRate in Keys(kw)
    ensures Lookup(kw, InterestRate).FloatV? && x == Lookup(kw, InterestRate).x && 0.0 < x < 1.0
  {
    LookupValid(kw, InterestRate);
    Lookup(kw, InterestRate).x
  }

  /** The validated `num_months`. */
  function TermArg(kw: Kwargs): (n: nat)
    requires AllValid(kw) && NumMonths in Keys(kw)
    ensures Lookup(kw, NumMonths).IntV? && n == Lookup(kw, NumMonths).i && n >= 1
  {
    LookupValid(kw, NumMonths);
    Lookup(kw, NumMonths).i
  }

  /** The validation rules, key by key: which values each core key rejects. */
  lemma ValidatorRules(v: Value)
    ensures Validate([Arg(LoanSize, v)]).Failure? <==> !IsNumber(v) || Num(v) <= 0.0
    ensures Validate([Arg(MonthlyPayment, v)]).Failure? <==> !IsNumber(v) || Num(v) <= 0.0
    ensures Validate([Arg(InterestRate, v)]).Failure? <==> !v.FloatV? || v.x <= 0.0 || v.x >= 1.0
    ensures Validate([Arg(NumMonths, v)]).Failure? <==> !v.IntV? || v.i < 1
    ensures forall name :: !IsCoreName(name) ==> Validate([Arg(name, v)]) == Success([UnusedParameter(name)])
  {
    forall name | !IsCoreName(name)
      ensures Validate([Arg(name, v)]) == Success([UnusedParameter(name)])
    {
      assert [Arg(name, v)][1..] == [];
      assert Validate([]) == Success([]);
      assert [UnusedParameter(name)] + [] == [UnusedParameter(name)];
    }
  }
}

=== FILE: poly.dfy ===
/** Polynomials as coefficient lists, lowest power first: entry j is the
    coefficient of x^j. numpy's `poly1d` wants the highest power first, which
    is why the source reverses its lists with `[::-1]` before wrapping them;
    the model keeps the unreversed list and evaluates it directly. */
module Poly {
  import opened RealArith

  /** Value of the polynomial at x (Horner's scheme). */
  function Eval(c: seq<real>, x: real): real
    decreases |c|
  {
    if |c| == 0 then 0.0 else c[0] + x * Eval(c[1..], x)
  }

  /** The formal derivative: entry j is (j+1) times entry j+1. */
  function Derivative(c: seq<real>): seq<real>
  {
    if |c| == 0 then []
    else seq(|c| - 1, j requires 0 <= j < |c| - 1 => (j + 1) as real * c[j + 1])
  }

  lemma DerivativeScaled(c: seq<real>)
    requires |c| > 0
    ensures |Derivative(c)| == |c| - 1
    ensures forall j :: 0 <= j < |c| - 1 ==> Derivative(c)[j] == (j + 1) as real * c[j + 1]
  {
  }

  function Zeros(k: nat): seq<real>
  {
    seq(k, _ => 0.0)
  }

  /** Row n of Pascal's triangle, as reals. */
  function BinomialRow(n: nat): seq<real>
  {
    seq(n + 1, k requires 0 <= k <= n => Comb(n, k) as real)
  }

  /** c is, entry by entry, the combination a u + b v. */
  predicate IsCombination(c: seq<real>, u: seq<real>, v: seq<real>, a: real, b: real)
  {
    |c| == |u| == |v| && forall j :: 0 <= j < |c| ==> c[j] == a * u[j] + b * v[j]
  }

  /** Evaluation is linear in the coefficients. */
  lemma {:induction false} EvalLinear(c: seq<real>, u: seq<real>, v: seq<real>, a: real, b: real, x: real)
    requires IsCombination(c, u, v, a, b)
    ensures Eval(c, x) == a * Eval(u, x) + b * Eval(v, x)
    decreases |c|
  {
    if |c| > 0 {
      CombinationTail(c, u, v, a, b);
      EvalLinear(c[1..], u[1..], v[1..], a, b, x);
      HornerStepLinear(c[0], u[0], v[0], Eval(c[1..], x), Eval(u[1..], x), Eval(v[1..], x), a, b, x);
    }
  }

  lemma CombinationTail(c: seq<real>, u: seq<real>, v: seq<real>, a: real, b: real)
    requires IsCombination(c, u, v, a, b) && |c| > 0
    ensures IsCombination(c[1..], u[1..], v[1..], a, b)
  {
    forall j | 0 <= j < |c| - 1
      ensures c[1..][j] == a * u[1..][j] + b * v[1..][j]
    {
      assert c[1..][j] == c[j + 1];
    }
  }

  /** One Horner step keeps a linear combination linear. */
  lemma HornerStepLinear(c0: real, u0: real, v0: real, ec: real, eu: real, ev: real, a: real, b: real, x: real)
    requires c0 == a * u0 + b * v0 && ec == a * eu + b * ev
    ensures c0 + x * ec == a * (u0 + x * eu) + b * (v0 + x * ev)
  {
    assert x * ec == a * (x * eu) + b * (x * ev);
  }

  /** A trailing zero coefficient does not change the value. */
  lemma {:induction false} EvalPadZero(s: seq<real>, x: real)
    ensures Eval(s + [0.0], x) == Eval(s, x)
    decreases |s|
  {
    if |s| > 0 {
      assert (s + [0.0])[1..] == s[1..] + [0.0];
      EvalPadZero(s[1..], x);
    }
  }

  /** A leading zero coefficient multiplies the value by x. */
  lemma EvalShift(s: seq<real>, x: real)
    ensures Eval([0.0] + s, x) == x * Eval(s, x)
  {
    assert ([0.0] + s)[1..] == s;
  }

  lemma {:induction false} EvalZeros(k: nat, x: real)
    ensures Eval(Zeros(k), x) == 0.0
  {
    if k > 0 {
      assert Zeros(k)[1..] == Zeros(k - 1);
      EvalZeros(k - 1, x);
    }
  }

  /** Pascal's rule on whole rows: row n is row n-1 shifted up plus row n-1
      shifted down. */
  lemma PascalRows(n: nat)
    requires n >= 1
    ensures IsCombination(BinomialRow(n), BinomialRow(n - 1) + [0.0], [0.0] + BinomialRow(n - 1), 1.0, 1.0)
  {
    var row, prev := BinomialRow(n), BinomialRow(n - 1);
    var low, high := prev + [0.0], [0.0] + prev;
    forall j | 0 <= j < |row|
      ensures row[j] == 1.0 * low[j] + 1.0 * high[j]
    {
      if j == 0 {
      } else if j < n {
        assert low[j] == Comb(n - 1, j) as real;
        assert high[j] == Comb(n - 1, j - 1) as real;
      } else {
        CombAboveN(n - 1, n);
        CombDiagonal(n - 1);
        CombDiagonal(n);
        assert low[j] == 0.0;
        assert high[j] == 1.0;
      }
    }
  }

  /** Evaluating row n splits into the two shifted copies of row n-1. */
  lemma EvalPascalRow(n: nat, x: real)
    requires n >= 1
    ensures Eval(BinomialRow(n), x)
         == 1.0 * Eval(BinomialRow(n - 1) + [0.0], x) + 1.0 * Eval([0.0] + BinomialRow(n - 1), x)
  {
    var prev := BinomialRow(n - 1);
    PascalRows(n);
    EvalLinear(BinomialRow(n), prev + [0.0], [0.0] + prev, 1.0, 1.0, x);
  }

  /** One step of the binomial theorem: multiplying by (1 + x) moves from
      one row of Pascal's triangle to the next. */
  lemma BinomialStep(n: nat, x: real)
    requires n >= 1
    ensures Eval(BinomialRow(n), x) == (1.0 + x) * Eval(BinomialRow(n - 1), x)
  {
    var prev := BinomialRow(n - 1);
    EvalPascalRow(n, x);
    EvalPadZero(prev, x);
    EvalShift(prev, x);
    var e := Eval(prev, x);
    assert (1.0 + x) * e == 1.0 * e + 1.0 * (x * e);
  }

  /** The binomial theorem: row n of Pascal's triangle is the coefficient
      list of (1 + x)^n. */
  lemma {:induction false} BinomialTheorem(n: nat, x: real)
    ensures Eval(BinomialRow(n), x) == Pow(1.0 + x, n)
  {
    if n == 0 {
      var row := BinomialRow(0);
      assert row == [1.0];
      assert row[1..] == [];
    } else {
      BinomialStep(n, x);
      BinomialTheorem(n - 1, x);
    }
  }
}

=== FILE: ratepoly.dfy ===
/** The interest-rate case: `_construct_interest_rate_poly`,
    `_construct_interest_rate_poly_deriv` and `_solve_for_interest_rate`
    (Mortgage.py:187-223). */
module RatePoly {
  import opened RealArith
  import opened Poly
  import opened Results
  import opened Params
  import opened Solvers

  /** Coefficient j (constant term first) of the polynomial g whose positive
      root is the monthly rate: pay C(n, j+1) - P C(n, j) for j < n, and -P
      for the top power. */
  function RateCoeff(loanSize: real, pay: real, n: nat, j: nat): real
  {
    if j < n then pay * (Comb(n, j + 1) as real) - loanSize * (Comb(n, j) as real)
    else -loanSize
  }

  /** The list the source builds before reversing it. */
  function RatePolyCoeffs(loanSize: real, pay: real, n: nat): seq<real>
  {
    seq(n + 1, j requires 0 <= j <= n => RateCoeff(loanSize, pay, n, j))
  }

  /** Coefficient j of g', written out as the source does: (j+1)(pay C(n, j+2)
      - P C(n, j+1)) for j < n-1, and -n P for the last. */
  function RateDerivCoeff(loanSize: real, pay: real, n: nat, j: nat): real
  {
    if j + 1 < n then (j + 1) as real * (pay * (Comb(n, j + 2) as real) - loanSize * (Comb(n, j + 1) as real))
    else -(n as real * loanSize)
  }

  /** The derivative's list, built independently of the first. */
  function RatePolyDerivCoeffs(loanSize: real, pay: real, n: nat): seq<real>
  {
    seq(n, j requires 0 <= j < n => RateDerivCoeff(loanSize, pay, n, j))
  }

  /** Entry by entry, the derivative's list scales the next coefficient of g. */
  lemma DerivCoeffAt(loanSize: real, pay: real, n: nat, j: nat)
    requires j < n
    ensures RateDerivCoeff(loanSize, pay, n, j) == (j + 1) as real * RateCoeff(loanSize, pay, n, j + 1)
  {
    if j + 1 < n {
      assert j + 1 + 1 == j + 2;
    } else {
      Scale(n as real, loanSize, loanSize);
    }
  }

  lemma Scale(k: real, a: real, b: real)
    requires a == b
    ensures k * a == k * b && k * -b == -(k * b)
  {
  }

  lemma DerivCoeffsScaled(loanSize: real, pay: real, n: nat)
    ensures |RatePolyDerivCoeffs(loanSize, pay, n)| == n
    ensures forall j :: 0 <= j < n ==>
      RatePolyDerivCoeffs(loanSize, pay, n)[j] == (j + 1) as real * RatePolyCoeffs(loanSize, pay, n)[j + 1]
  {
    forall j | 0 <= j < n
      ensures RatePolyDerivCoeffs(loanSize, pay, n)[j] == (j + 1) as real * RatePolyCoeffs(loanSize, pay, n)[j + 1]
    {
      DerivCoeffAt(loanSize, pay, n, j);
    }
  }

  /** The second list is exactly the formal derivative of the first. */
  lemma DerivCoeffsAreDerivative(loanSize: real, pay: real, n: nat)
    ensures RatePolyDerivCoeffs(loanSize, pay, n) == Derivative(RatePolyCoeffs(loanSize, pay, n))
  {
    DerivCoeffsScaled(loanSize, pay, n);
    DerivativeScaled(RatePolyCoeffs(loanSize, pay, n));
  }

  /** Coefficients of (1 + x)^n - 1, padded to length n + 2. */
  function GrowthMinusOne(n: nat): seq<real>
  {
    var u, w := BinomialRow(n) + [0.0], [1.0] + Zeros(n + 1);
    seq(n + 2, j requires 0 <= j < n + 2 => 1.0 * u[j] + -1.0 * w[j])
  }

  lemma EvalGrowthMinusOne(n: nat, x: real)
    ensures Eval(GrowthMinusOne(n), x) == Pow(1.0 + x, n) - 1.0
  {
    var row := BinomialRow(n);
    var u, w := row + [0.0], [1.0] + Zeros(n + 1);
    EvalLinear(GrowthMinusOne(n), u, w, 1.0, -1.0, x);
    EvalPadZero(row, x);
    assert w[1..] == Zeros(n + 1);
    EvalZeros(n + 1, x);
    BinomialTheorem(n, x);
  }

  lemma ShiftedRatePolyCoeffAt(loanSize: real, pay: real, n: nat, j: nat)
    requires j < n + 2
    ensures ([0.0] + RatePolyCoeffs(loanSize, pay, n))[j]
         == pay * GrowthMinusOne(n)[j] + -loanSize * ([0.0] + BinomialRow(n))[j]
  {
    var c, row := RatePolyCoeffs(loanSize, pay, n), BinomialRow(n);
    var u, w := row + [0.0], [1.0] + Zeros(n + 1);
    var t := GrowthMinusOne(n);
    assert t[j] == 1.0 * u[j] + -1.0 * w[j];
    if j == 0 {
      assert u[0] == 1.0 && w[0] == 1.0;
    } else if j <= n {
      assert ([0.0] + c)[j] == c[j - 1];
      assert u[j] == Comb(n, j) as real && w[j] == 0.0;
      assert ([0.0] + row)[j] == Comb(n, j - 1) as real;
    } else {
      CombDiagonal(n);
      assert ([0.0] + c)[j] == -loanSize;
      assert u[j] == 0.0 && w[j] == 0.0;
      assert ([0.0] + row)[j] == 1.0;
    }
  }

  /** Coefficient by coefficient, x g(x) = pay ((1+x)^n - 1) - P x (1+x)^n. */
  lemma ShiftedRatePolyCoeffs(loanSize: real, pay: real, n: nat)
    ensures IsCombination([0.0] + RatePolyCoeffs(loanSize, pay, n), GrowthMinusOne(n), [0.0] + BinomialRow(n), pay, -loanSize)
  {
    forall j | 0 <= j < n + 2
      ensures ([0.0] + RatePolyCoeffs(loanSize, pay, n))[j]
           == pay * GrowthMinusOne(n)[j] + -loanSize * ([0.0] + BinomialRow(n))[j]
    {
      ShiftedRatePolyCoeffAt(loanSize, pay, n, j);
    }
  }

  lemma EvalShiftedRatePoly(loanSize: real, pay: real, n: nat, x: real)
    ensures Eval([0.0] + RatePolyCoeffs(loanSize, pay, n), x)
         == pay * Eval(GrowthMinusOne(n), x) + -loanSize * Eval([0.0] + BinomialRow(n), x)
  {
    ShiftedRatePolyCoeffs(loanSize, pay, n);
    EvalLinear([0.0] + RatePolyCoeffs(loanSize, pay, n), GrowthMinusOne(n), [0.0] + BinomialRow(n), pay, -loanSize, x);
  }

  /** x g(x) evaluated through the shifted list: pay((1+x)^n - 1) - P x (1+x)^n. */
  lemma EvalShiftedInGrowth(loanSize: real, pay: real, n: nat, x: real)
    ensures Eval([0.0] + RatePolyCoeffs(loanSize, pay, n), x)
         == pay * (Pow(1.0 + x, n) - 1.0) + -loanSize * (x * Pow(1.0 + x, n))
  {
    EvalShiftedRatePoly(loanSize, pay, n, x);
    EvalGrowthMinusOne(n, x);
    EvalShift(BinomialRow(n), x);
    BinomialTheorem(n, x);
  }

  /** g is the annuity identity divided by r: r g(r) = pay((1+r)^n - 1) - P r (1+r)^n. */
  lemma RatePolyIsAnnuity(loanSize: real, pay: real, n: nat, x: real)
    ensures x * Eval(RatePolyCoeffs(loanSize, pay, n), x)
         == pay * (Pow(1.0 + x, n) - 1.0) - loanSize * x * Pow(1.0 + x, n)
  {
    EvalShiftedInGrowth(loanSize, pay, n, x);
    EvalShift(RatePolyCoeffs(loanSize, pay, n), x);
  }

  /** Hence a non-zero r is a root of g exactly when the identity holds at r. */
  lemma RootIffIdentity(loanSize: real, pay: real, n: nat, x: real)
    requires x != 0.0
    ensures Eval(RatePolyCoeffs(loanSize, pay, n), x) == 0.0
        <==> pay * (Pow(1.0 + x, n) - 1.0) == loanSize * x * Pow(1.0 + x, n)
  {
    RatePolyIsAnnuity(loanSize, pay, n, x);
    ZeroProduct(x, Eval(RatePolyCoeffs(loanSize, pay, n), x));
  }

  lemma ZeroProduct(x: real, g: real)
    requires x != 0.0
    ensures x * g == 0.0 <==> g == 0.0
  {
    if x * g == 0.0 && g != 0.0 {
      assert false;
    }
  }

  /** The annuity identity at annual rate 12 x, written in the monthly rate x. */
  lemma AnnuityAtMonthlyRate(loanSize: real, pay: real, n: nat, x: real)
    ensures Annuity(loanSize, pay, 12.0 * x, n)
        <==> pay * (Pow(1.0 + x, n) - 1.0) == loanSize * x * Pow(1.0 + x, n)
  {
    assert MonthlyRate(12.0 * x) == x;
  }

  /** A positive r is a root of g exactly when the annual rate 12 r makes the
      closed-form payment equal to the given payment. */
  lemma RootIffPayment(loanSize: real, pay: real, n: nat, root: real)
    requires n >= 1 && root > 0.0
    ensures Eval(RatePolyCoeffs(loanSize, pay, n), root) == 0.0
        <==> pay == PaymentFrom(loanSize, 12.0 * root, n)
  {
    RootIffIdentity(loanSize, pay, n, root);
    AnnuityAtMonthlyRate(loanSize, pay, n, root);
    AnnuityDeterminesPayment(loanSize, pay, 12.0 * root, n);
  }

  /** What a root finder reports: its estimate and whether it converged. */
  datatype RootResult = RootResult(root: real, converged: bool)

  /** `scipy.optimize.newton` (polynomial, derivative, start, maxiter) and
      `scipy.optimize.bisect` (polynomial, a, b, maxiter), left uninterpreted. */
  datatype RootFinders = RootFinders(
    newton: (seq<real>, seq<real>, real, nat) -> RootResult,
    bisect: (seq<real>, real, real, nat) -> RootResult)

  const NewtonStart: real := 0.5
  const MaxIter: nat := 100

  /** Newton from 0.5 first; bisection on [0, 1] only when Newton did not
      converge; an error when neither did; otherwise 12 times the root. */
  function SolveForInterestRate(poly: seq<real>, deriv: seq<real>, f: RootFinders): (r: Result<real, Error>)
    ensures var nt, bs := f.newton(poly, deriv, NewtonStart, MaxIter), f.bisect(poly, 0.0, 1.0, MaxIter);
      && (r.Failure? <==> !nt.converged && !bs.converged)
      && (r.Failure? ==> r.error == RootNotFound)
      && (nt.converged ==> r.value == 12.0 * nt.root)
      && (!nt.converged && bs.converged ==> r.value == 12.0 * bs.root)
  {
    var nt := f.newton(poly, deriv, NewtonStart, MaxIter);
    if nt.converged then Success(12.0 * nt.root)
    else
      var bs := f.bisect(poly, 0.0, 1.0, MaxIter);
      if !bs.converged then Failure(RootNotFound)
      else Success(12.0 * bs.root)
  }

  /** Whichever finder produced it, a positive rate whose monthly rate is an
      exact root of g reproduces the payment through the closed form. */
  lemma SolvedRateReproducesPayment(loanSize: real, pay: real, n: nat, f: RootFinders)
    requires n >= 1
    requires var r := SolveForInterestRate(RatePolyCoeffs(loanSize, pay, n), RatePolyDerivCoeffs(loanSize, pay, n), f);
      r.Success? && r.value > 0.0 && Eval(RatePolyCoeffs(loanSize, pay, n), r.value / 12.0) == 0.0
    ensures var rate := SolveForInterestRate(RatePolyCoeffs(loanSize, pay, n), RatePolyDerivCoeffs(loanSize, pay, n), f).value;
      PaymentFrom(loanSize, rate, n) == pay
  {
    var rate := SolveForInterestRate(RatePolyCoeffs(loanSize, pay, n), RatePolyDerivCoeffs(loanSize, pay, n), f).value;
    RootIffPayment(loanSize, pay, n, rate / 12.0);
    assert 12.0 * (rate / 12.0) == rate;
  }
}

=== FILE: resolver.dfy ===
/** The constructor `FixedRateCalculator.__init__` (Mortgage.py:21-77):
    validate, classify the supplied core keys, derive the missing quantity. */
module Resolver {
  import opened Results
  import opened Params
  import opened Poly
  import opened Solvers
  import opened RatePoly
  import opened Amortization

  /** The branch of the constructor a set of keyword names selects. */
  datatype Case =
    | AllSupplied
    | DerivePayment
    | DerivePrincipal
    | DeriveMonths
    | DeriveRate
    | Insufficient

  /** How many of the four core quantities are absent. */
  function MissingCore(keys: set<string>): nat
  {
    (if LoanSize in keys then 0 else 1) + (if InterestRate in keys then 0 else 1)
    + (if MonthlyPayment in keys then 0 else 1) + (if NumMonths in keys then 0 else 1)
  }

  /** The source's chain of subset tests, in its order. */
  function CaseOf(keys: set<string>): (c: Case)
    ensures c == Insufficient <==> MissingCore(keys) >= 2
    ensures c == AllSupplied <==> MissingCore(keys) == 0
    ensures c == DerivePayment <==> MissingCore(keys) == 1 && MonthlyPayment !in keys
    ensures c == DerivePrincipal <==> MissingCore(keys) == 1 && LoanSize !in keys
    ensures c == DeriveMonths <==> MissingCore(keys) == 1 && NumMonths !in keys
    ensures c == DeriveRate <==> MissingCore(keys) == 1 && InterestRate !in keys
  {
    if {LoanSize, InterestRate, MonthlyPayment, NumMonths} <= keys then AllSupplied
    else if {LoanSize, InterestRate, NumMonths} <= keys && MonthlyPayment !in keys then DerivePayment
    else if {MonthlyPayment, NumMonths, InterestRate} <= keys && LoanSize !in keys then DerivePrincipal
    else if {LoanSize, MonthlyPayment, InterestRate} <= keys && NumMonths !in keys then DeriveMonths
    else if {LoanSize, MonthlyPayment, NumMonths} <= keys && InterestRate !in keys then DeriveRate
    else Insufficient
  }

  /** The numerical library routines the constructor calls: the two root
      finders and `math.log`. */
  datatype Numerics = Numerics(finders: RootFinders, ln: real -> real)

  /** A constructed calculator and the warnings emitted on the way. */
  datatype Resolution = Resolution(loan: Loan, warnings: seq<Warning>)

  /** The plausibility warnings after a derived rate: negative, above 10%,
      below 0.5%, checked in that order. */
  function RateWarnings(rate: real): (w: seq<Warning>)
    ensures |w| <= 1
    ensures w == [] <==> 0.005 <= rate <= 0.10
    ensures NegativeRate in w <==> rate < 0.0
    ensures HighRate in w <==> rate > 0.10
    ensures LowRate in w <==> 0.0 <= rate < 0.005
  {
    if rate < 0.0 then [NegativeRate]
    else if rate > 0.10 then [HighRate]
    else if rate < 0.005 then [LowRate]
    else []
  }

  /** The loan keeps every supplied quantity exactly as given, and its
      amounts are positive. */
  predicate KeepsSupplied(kw: Kwargs, loan: Loan)
  {
    && loan.loanSize > 0.0 && loan.monthlyPayment > 0.0
    && (LoanSize in Keys(kw) ==>
          IsNumber(Lookup(kw, LoanSize)) && loan.loanSize == Num(Lookup(kw, LoanSize)))
    && (MonthlyPayment in Keys(kw) ==>
          IsNumber(Lookup(kw, MonthlyPayment)) && loan.monthlyPayment == Num(Lookup(kw, MonthlyPayment)))
    && (InterestRate in Keys(kw) ==>
          Lookup(kw, InterestRate).FloatV? && loan.interestRate == Lookup(kw, InterestRate).x
          && 0.0 < loan.interestRate < 1.0)
    && (NumMonths in Keys(kw) ==>
          Lookup(kw, NumMonths).IntV? && loan.numMonths == Lookup(kw, NumMonths).i && loan.numMonths >= 1)
  }

  function Resolve(kw: Kwargs, num: Numerics): (r: Result<Resolution, Error>)
    ensures Validate(kw).Failure? ==> r == Failure(Validate(kw).error)
    ensures r == Failure(InsufficientParameters) <==> AllValid(kw) && MissingCore(Keys(kw)) >= 2
    ensures r.Success? ==> AllValid(kw) && MissingCore(Keys(kw)) <= 1
    ensures r.Failure? ==>
      r.error.InvalidParameter? || r.error == InsufficientParameters || r.error == MathDomainError
      || r.error == DivisionByZero || r.error == RootNotFound
    ensures r.Success? ==> Validate(kw).value <= r.value.warnings
    ensures r.Success? ==> KeepsSupplied(kw, r.value.loan)
  {
    var unused :- Validate(kw);
    match CaseOf(Keys(kw))
    case AllSupplied =>
      Success(Resolution(SuppliedLoan(kw), unused))
    case DerivePayment =>
      Success(Resolution(PaymentLoan(kw), unused))
    case DerivePrincipal =>
      Success(Resolution(PrincipalLoan(kw), unused))
    case DeriveMonths =>
      var loan :- MonthsLoan(kw, num.ln);
      Success(Resolution(loan, unused))
    case DeriveRate =>
      var loan :- RateLoan(kw, num.finders);
      Success(Resolution(loan, unused + RateWarnings(loan.interestRate)))
    case Insufficient =>
      Failure(InsufficientParameters)
  }

  /** All four quantities supplied: taken as they are. */
  function SuppliedLoan(kw: Kwargs): (loan: Loan)
    requires AllValid(kw) && CaseOf(Keys(kw)) == AllSupplied
    ensures KeepsSupplied(kw, loan)
  {
    Loan(AmountArg(kw, LoanSize), RateArg(kw), AmountArg(kw, MonthlyPayment), TermArg(kw))
  }

  /** The payment is missing: derived from the closed form. */
  function PaymentLoan(kw: Kwargs): (loan: Loan)
    requires AllValid(kw) && CaseOf(Keys(kw)) == DerivePayment
    ensures KeepsSupplied(kw, loan)
    ensures Annuity(loan.loanSize, loan.monthlyPayment, loan.interestRate, loan.numMonths)
  {
    var p, rate, n := AmountArg(kw, LoanSize), RateArg(kw), TermArg(kw);
    assert p * MonthlyRate(rate) > 0.0;
    Loan(p, rate, PaymentFrom(p, rate, n), n)
  }

  /** The loan size is missing: derived from the closed form. */
  function PrincipalLoan(kw: Kwargs): (loan: Loan)
    requires AllValid(kw) && CaseOf(Keys(kw)) == DerivePrincipal
    ensures KeepsSupplied(kw, loan)
    ensures Annuity(loan.loanSize, loan.monthlyPayment, loan.interestRate, loan.numMonths)
  {
    var pay, rate, n := AmountArg(kw, MonthlyPayment), RateArg(kw), TermArg(kw);
    Loan(PrincipalFrom(pay, rate, n), rate, pay, n)
  }

  /** The term is missing: derived through the logarithm, which can fail. */
  function MonthsLoan(kw: Kwargs, ln: real -> real): (r: Result<Loan, Error>)
    requires AllValid(kw) && CaseOf(Keys(kw)) == DeriveMonths
    ensures r.Failure? ==> r.error == MathDomainError || r.error == DivisionByZero
    ensures r.Success? ==> KeepsSupplied(kw, r.value)
    ensures var m := MonthsFrom(AmountArg(kw, LoanSize), AmountArg(kw, MonthlyPayment), RateArg(kw), ln);
      && (r.Failure? <==> m.Failure?)
      && (r.Failure? ==> r.error == m.error)
      && (r.Success? ==> r.value.numMonths == m.value)
  {
    var p, pay, rate := AmountArg(kw, LoanSize), AmountArg(kw, MonthlyPayment), RateArg(kw);
    var n :- MonthsFrom(p, pay, rate, ln);
    Success(Loan(p, rate, pay, n))
  }

  /** The rate is missing: twelve times a root of the rate polynomial, when
      one of the two root finders converges. */
  function RateLoan(kw: Kwargs, finders: RootFinders): (r: Result<Loan, Error>)
    requires AllValid(kw) && CaseOf(Keys(kw)) == DeriveRate
    ensures r.Failure? ==> r.error == RootNotFound
    ensures r.Success? ==> KeepsSupplied(kw, r.value)
  {
    var p, pay, n := AmountArg(kw, LoanSize), AmountArg(kw, MonthlyPayment), TermArg(kw);
    var rate :- SolveForInterestRate(RatePolyCoeffs(p, pay, n), RatePolyDerivCoeffs(p, pay, n), finders);
    Success(Loan(p, rate, pay, n))
  }

  /** With all four quantities supplied nothing is derived and nothing is
      checked across them: a payment far too small to repay the loan is
      accepted as given. */
  lemma AllSuppliedTrusted(num: Numerics)
    ensures var kw := [Arg(LoanSize, IntV(1000)), Arg(InterestRate, FloatV(0.05)),
                       Arg(MonthlyPayment, IntV(1)), Arg(NumMonths, IntV(1))];
      Resolve(kw, num) == Success(Resolution(Loan(1000.0, 0.05, 1.0, 1), []))
    ensures !Annuity(1000.0, 1.0, 0.05, 1)
  {
    var kw := [Arg(LoanSize, IntV(1000)), Arg(InterestRate, FloatV(0.05)),
               Arg(MonthlyPayment, IntV(1)), Arg(NumMonths, IntV(1))];
    KeysIndex(kw, LoanSize);
    KeysIndex(kw, InterestRate);
    KeysIndex(kw, MonthlyPayment);
    KeysIndex(kw, NumMonths);
    assert kw[0].name == LoanSize && kw[1].name == InterestRate;
    assert kw[2].name == MonthlyPayment && kw[3].name == NumMonths;
    assert CaseOf(Keys(kw)) == AllSupplied;
    assert AllValid(kw);
    ValidateCoreOnly(kw);
    LookupFirst(kw, 0);
    LookupFirst(kw, 1);
    LookupFirst(kw, 2);
    LookupFirst(kw, 3);
    assert Validate(kw) == Success([]);
    assert Growth(0.05, 1) == 1.0 + 0.05 / 12.0;
  }

  /** Two core quantities are not enough. */
  lemma TwoKeysInsufficient(num: Numerics)
    ensures Resolve([Arg(LoanSize, IntV(240000)), Arg(NumMonths, IntV(360))], num)
         == Failure(InsufficientParameters)
  {
    var kw := [Arg(LoanSize, IntV(240000)), Arg(NumMonths, IntV(360))];
    KeysIndex(kw, LoanSize);
    KeysIndex(kw, InterestRate);
    KeysIndex(kw, MonthlyPayment);
    KeysIndex(kw, NumMonths);
    assert kw[0].name == LoanSize && kw[1].name == NumMonths;
    assert MissingCore(Keys(kw)) == 2;
    assert AllValid(kw);
  }

  /** The bounds of the annual rate are exclusive, and an int rate is refused
      even when in range. */
  lemma RateBoundaries(num: Numerics, v: Value)
    requires v == FloatV(0.0) || v == FloatV(1.0) || v == IntV(0)
    ensures Resolve([Arg(LoanSize, IntV(240000)), Arg(InterestRate, v), Arg(NumMonths, IntV(360))], num)
         == Failure(InvalidParameter(InterestRate))
  {
    var kw := [Arg(LoanSize, IntV(240000)), Arg(InterestRate, v), Arg(NumMonths, IntV(360))];
    assert ArgValid(kw[0]) && !ArgValid(kw[1]);
  }

  /** With all four quantities supplied and valid, the constructor always
      succeeds: it stores the supplied values and warns only as the
      validator does. */
  lemma AllSuppliedAccepted(kw: Kwargs, num: Numerics)
    requires AllValid(kw) && CaseOf(Keys(kw)) == AllSupplied
    ensures Resolve(kw, num) == Success(Resolution(SuppliedLoan(kw), Validate(kw).value))
  {
  }

  /** On valid arguments the two closed-form cases always succeed, and
      their loans' payment is the closed-form payment for their size, rate
      and term. */
  lemma ClosedFormCasesBalanced(kw: Kwargs, num: Numerics)
    requires AllValid(kw)
    requires CaseOf(Keys(kw)) == DerivePayment || CaseOf(Keys(kw)) == DerivePrincipal
    ensures Resolve(kw, num).Success?
    ensures Balanced(Resolve(kw, num).value.loan)
    ensures Resolve(kw, num).value.warnings == Validate(kw).value
  {
    if CaseOf(Keys(kw)) == DerivePrincipal {
      PrincipalThenPayment(AmountArg(kw, MonthlyPayment), RateArg(kw), TermArg(kw));
    }
  }

  /** The last row of the schedule: balance 0, ownership 100%, and a Total
      Interest entry equal to the total interest paid. */
  predicate EndsPaidOff(loan: Loan)
  {
    && loan.numMonths >= 1 && loan.loanSize > 0.0
    && BalanceColumn(loan)[loan.numMonths - 1] == 0.0
    && OwnershipColumn(loan)[loan.numMonths - 1] == 100.0
    && TotalInterestColumn(loan)[loan.numMonths - 1] == TotalInterestPaid(loan)
  }

  /** Every balanced loan's schedule ends paid off. */
  lemma BalancedEndsPaidOff(loan: Loan)
    requires Balanced(loan)
    ensures EndsPaidOff(loan)
  {
    ScheduleEndsPaidOff(loan);
  }

  /** Hence, for a loan built by either closed-form case, the schedule ends
      with a zero balance, 100% ownership, and a last Total Interest entry
      equal to the total interest paid. */
  lemma ClosedFormSchedulePaysOff(kw: Kwargs, num: Numerics)
    requires AllValid(kw)
    requires CaseOf(Keys(kw)) == DerivePayment || CaseOf(Keys(kw)) == DerivePrincipal
    ensures Resolve(kw, num).Success? && EndsPaidOff(Resolve(kw, num).value.loan)
  {
    assert Resolve(kw, num).Success? && Balanced(Resolve(kw, num).value.loan) by {
      ClosedFormCasesBalanced(kw, num);
    }
    BalancedEndsPaidOff(Resolve(kw, num).value.loan);
  }

  /** The term case: the constructor fails exactly when the term formula
      does, with its error; otherwise the stored term is the formula's value
      and the only warnings are the validator's. */
  lemma DerivedMonths(kw: Kwargs, num: Numerics)
    requires AllValid(kw) && CaseOf(Keys(kw)) == DeriveMonths
    ensures var m := MonthsFrom(AmountArg(kw, LoanSize), AmountArg(kw, MonthlyPayment), RateArg(kw), num.ln);
      var r := Resolve(kw, num);
      && (r.Failure? <==> m.Failure?)
      && (r.Failure? ==> r.error == m.error)
      && (r.Success? ==> r.value.loan.numMonths == m.value && r.value.warnings == Validate(kw).value)
  {
  }

  /** The rate case: Newton, then bisection, then an error; the stored rate is
      12 times the root found, followed by the plausibility warnings. */
  lemma DerivedRateFallback(kw: Kwargs, num: Numerics)
    requires AllValid(kw) && MissingCore(Keys(kw)) == 1 && InterestRate !in Keys(kw)
    ensures var p, pay, n := AmountArg(kw, LoanSize), AmountArg(kw, MonthlyPayment), TermArg(kw);
      var poly := RatePolyCoeffs(p, pay, n);
      var nt := num.finders.newton(poly, RatePolyDerivCoeffs(p, pay, n), NewtonStart, MaxIter);
      var bs := num.finders.bisect(poly, 0.0, 1.0, MaxIter);
      var r := Resolve(kw, num);
      && (r.Failure? <==> !nt.converged && !bs.converged)
      && (r.Failure? ==> r.error == RootNotFound)
      && (r.Success? ==>
            r.value.loan.interestRate == 12.0 * (if nt.converged then nt.root else bs.root)
            && r.value.warnings == Validate(kw).value + RateWarnings(r.value.loan.interestRate))
  {
  }

  /** A positive derived rate whose monthly rate is an exact root of the rate
      polynomial gives back the supplied payment through the closed form. */
  lemma DerivedRateReproducesPayment(kw: Kwargs, num: Numerics)
    requires Resolve(kw, num).Success? && InterestRate !in Keys(kw)
    requires var loan := Resolve(kw, num).value.loan;
      loan.interestRate > 0.0 && loan.numMonths >= 1
      && Eval(RatePolyCoeffs(loan.loanSize, loan.monthlyPayment, loan.numMonths), loan.interestRate / 12.0) == 0.0
    ensures Balanced(Resolve(kw, num).value.loan)
  {
    var loan := Resolve(kw, num).value.loan;
    RootIffPayment(loan.loanSize, loan.monthlyPayment, loan.numMonths, loan.interestRate / 12.0);
    assert 12.0 * (loan.interestRate / 12.0) == loan.interestRate;
  }
}

=== FILE: results.dfy ===
/** A failure-compatible result type: the model's stand-in for a Python
    function that either returns a value or raises. */
module Results {

  datatype Result<+T, +E> = Success(value: T) | Failure(error: E) {

    predicate IsFailure() {
      Failure?
    }

    function PropagateFailure<U>(): Result<U, E>
      requires Failure?
    {
      Failure(error)
    }

    function Extract(): T
      requires Success?
    {
      value
    }
  }
}

=== FILE: solvers.dfy ===
/** The closed-form annuity solvers `_solve_for_monthly_payment`,
    `_solve_for_principal` and `_solve_for_months` (Mortgage.py:172-183). */
module Solvers {
  import opened RealArith
  import opened Results
  import opened Params

  /** Periodic rate r for a nominal annual rate compounded monthly. */
  function MonthlyRate(rate: real): real
  {
    rate / 12.0
  }

  /** Compounding factor (1 + r)^n over n months. */
  function Growth(rate: real, n: nat): real
  {
    Pow(1.0 + MonthlyRate(rate), n)
  }

  lemma GrowthAboveOne(rate: real, n: nat)
    requires rate > 0.0 && n >= 1
    ensures Growth(rate, n) > 1.0
  {
    PowAboveOne(1.0 + MonthlyRate(rate), n);
  }

  /** The annuity identity: paying `pay` for n months retires `loanSize`. */
  predicate Annuity(loanSize: real, pay: real, rate: real, n: nat)
  {
    pay * (Growth(rate, n) - 1.0) == loanSize * MonthlyRate(rate) * Growth(rate, n)
  }

  lemma PaymentAboveInterest(loanSize: real, r: real, q: real)
    requires loanSize > 0.0 && r > 0.0 && q > 1.0
    ensures loanSize * r * q / (q - 1.0) > loanSize * r
  {
    var a, d := loanSize * r, q - 1.0;
    var x := a * q / d;
    assert x * d == a * q;
    assert (x - a) * d == a;
  }

  /** Payment from principal: P r q / (q - 1). */
  function PaymentFrom(loanSize: real, rate: real, n: nat): (pay: real)
    requires rate > 0.0 && n >= 1
    ensures Annuity(loanSize, pay, rate, n)
    ensures loanSize > 0.0 ==> pay > loanSize * MonthlyRate(rate)
  {
    GrowthAboveOne(rate, n);
    var r, q := MonthlyRate(rate), Growth(rate, n);
    if loanSize > 0.0 then PaymentAboveInterest(loanSize, r, q); loanSize * r * q / (q - 1.0)
    else loanSize * r * q / (q - 1.0)
  }

  lemma PrincipalBelowPayment(pay: real, r: real, q: real)
    requires pay > 0.0 && r > 0.0 && q > 1.0
    ensures var p := pay * (q - 1.0) / (r * q); p > 0.0 && pay > p * r
  {
    var p := pay * (q - 1.0) / (r * q);
    assert p * r == pay * (q - 1.0) / q;
    assert pay * (q - 1.0) / q == pay - pay / q;
    assert pay / q > 0.0;
  }

  /** Principal from payment: pay (q - 1) / (r q). */
  function PrincipalFrom(pay: real, rate: real, n: nat): (loanSize: real)
    requires rate > 0.0 && n >= 1
    ensures Annuity(loanSize, pay, rate, n)
    ensures pay > 0.0 ==> loanSize > 0.0 && pay > loanSize * MonthlyRate(rate)
  {
    GrowthAboveOne(rate, n);
    var r, q := MonthlyRate(rate), Growth(rate, n);
    if pay > 0.0 then PrincipalBelowPayment(pay, r, q); pay * (q - 1.0) / (r * q)
    else pay * (q - 1.0) / (r * q)
  }

  lemma CancelFactor(a: real, b: real, d: real)
    requires d != 0.0 && a * d == b * d
    ensures a == b
  {
    assert (a - b) * d == 0.0;
  }

  /** For a positive rate the annuity identity fixes the payment... */
  lemma AnnuityDeterminesPayment(loanSize: real, pay: real, rate: real, n: nat)
    requires rate > 0.0 && n >= 1
    ensures Annuity(loanSize, pay, rate, n) <==> pay == PaymentFrom(loanSize, rate, n)
  {
    GrowthAboveOne(rate, n);
    var q := Growth(rate, n);
    var p := PaymentFrom(loanSize, rate, n);
    if Annuity(loanSize, pay, rate, n) {
      CancelFactor(pay, p, q - 1.0);
    }
  }

  /** ...and the principal. */
  lemma AnnuityDeterminesPrincipal(loanSize: real, pay: real, rate: real, n: nat)
    requires rate > 0.0 && n >= 1
    ensures Annuity(loanSize, pay, rate, n) <==> loanSize == PrincipalFrom(pay, rate, n)
  {
    GrowthAboveOne(rate, n);
    var r, q := MonthlyRate(rate), Growth(rate, n);
    var p := PrincipalFrom(pay, rate, n);
    if Annuity(loanSize, pay, rate, n) {
      PowPositive(1.0 + r, n);
      assert loanSize * (r * q) == p * (r * q);
      CancelFactor(loanSize, p, r * q);
    }
  }

  /** Solving for the payment and then for the principal returns the
      principal the loan started with. */
  lemma PaymentThenPrincipal(loanSize: real, rate: real, n: nat)
    requires rate > 0.0 && n >= 1
    ensures PrincipalFrom(PaymentFrom(loanSize, rate, n), rate, n) == loanSize
  {
    AnnuityDeterminesPrincipal(loanSize, PaymentFrom(loanSize, rate, n), rate, n);
  }

  /** Solving for the principal and then for the payment returns the payment. */
  lemma PrincipalThenPayment(pay: real, rate: real, n: nat)
    requires rate > 0.0 && n >= 1
    ensures PaymentFrom(PrincipalFrom(pay, rate, n), rate, n) == pay
  {
    AnnuityDeterminesPayment(PrincipalFrom(pay, rate, n), pay, rate, n);
  }

  /** 1 - r P / pay, the argument of the logarithm in the term formula. */
  function LogArgument(loanSize: real, pay: real, rate: real): real
    requires pay > 0.0
  {
    1.0 - MonthlyRate(rate) * loanSize / pay
  }

  /** The quotient in the term formula, -log(1 - r P / pay) / log(1 + r),
      with `ln` standing for `math.log`. */
  function TermQuotient(loanSize: real, pay: real, rate: real, ln: real -> real): real
    requires pay > 0.0 && ln(1.0 + MonthlyRate(rate)) != 0.0
  {
    -ln(LogArgument(loanSize, pay, rate)) / ln(1.0 + MonthlyRate(rate))
  }

  /** Term from principal and payment: `int` of the quotient above.
      `math.log` raises on a non-positive argument, which happens exactly when
      the payment does not exceed the first month's interest; a zero
      denominator raises ZeroDivisionError. */
  function MonthsFrom(loanSize: real, pay: real, rate: real, ln: real -> real): (r: Result<int, Error>)
    requires pay > 0.0
    ensures r == Failure(MathDomainError) <==> loanSize * MonthlyRate(rate) >= pay
    ensures r == Failure(DivisionByZero) <==>
      loanSize * MonthlyRate(rate) < pay && ln(1.0 + MonthlyRate(rate)) == 0.0
    ensures r.Failure? ==> r.error == MathDomainError || r.error == DivisionByZero
    ensures r.Success? ==>
      ln(1.0 + MonthlyRate(rate)) != 0.0 &&
      var t := TermQuotient(loanSize, pay, rate, ln);
      && r.value == TruncToInt(t)
      && (t >= 0.0 ==> r.value as real <= t < r.value as real + 1.0)
      && (t < 0.0 ==> r.value as real - 1.0 < t <= r.value as real)
  {
    var r := MonthlyRate(rate);
    assert LogArgument(loanSize, pay, rate) <= 0.0 <==> loanSize * r >= pay by {
      assert r * loanSize / pay * pay == loanSize * r;
    }
    if LogArgument(loanSize, pay, rate) <= 0.0 then Failure(MathDomainError)
    else if ln(1.0 + r) == 0.0 then Failure(DivisionByZero)
    else Success(TruncToInt(TermQuotient(loanSize, pay, rate, ln)))
  }

  /** 1 / (1 + r)^n, the discount factor over n months. */
  function Discount(rate: real, n: nat): (d: real)
    requires rate > 0.0 && n >= 1
    ensures d * Growth(rate, n) == 1.0
  {
    GrowthAboveOne(rate, n);
    1.0 / Growth(rate, n)
  }

  lemma MulBoth(a: real, b: real, c: real)
    requires a == b
    ensures a * c == b * c
  {
  }

  /** The algebra behind `DiscountAlgebra`, over plain products: with
      w = r P, y pay = w and pay (q - 1) = w q give 1 - y = 1 / q. */
  lemma DiscountCore(w: real, q: real, pay: real, d: real, y: real)
    requires q > 1.0 && pay > 0.0
    requires pay * (q - 1.0) == w * q && d * q == 1.0 && y * pay == w
    ensures 1.0 - y == d
  {
    MulBoth(y * pay, w, q);
    assert (y * q) * pay == (y * pay) * q;
    CancelFactor(y * q, q - 1.0, pay);
    assert (1.0 - y) * q == d * q;
    CancelFactor(1.0 - y, d, q);
  }

  /** With the annuity payment, the argument of the logarithm in the term
      formula is the discount factor. */
  lemma DiscountAlgebra(loanSize: real, r: real, q: real, pay: real, d: real)
    requires loanSize > 0.0 && r > 0.0 && q > 1.0 && pay > 0.0
    requires pay * (q - 1.0) == loanSize * r * q && d * q == 1.0
    ensures 1.0 - r * loanSize / pay == d
  {
    assert r * loanSize / pay * pay == r * loanSize;
    DiscountCore(r * loanSize, q, pay, d, r * loanSize / pay);
  }

  lemma LogQuotient(a: real, l: real, n: nat)
    requires l != 0.0 && a == -(n as real) * l
    ensures -a / l == n as real
  {
  }

  /** A payment satisfying the annuity identity exceeds the first month's
      interest w = r P. */
  lemma AnnuityAboveInterest(w: real, q: real, pay: real)
    requires w > 0.0 && q > 1.0 && pay * (q - 1.0) == w * q
    ensures pay > w
  {
    assert (pay - w) * (q - 1.0) == w;
    PositiveFactor(pay - w, q - 1.0);
  }

  lemma PositiveFactor(a: real, c: real)
    requires a * c > 0.0 && c > 0.0
    ensures a > 0.0
  {
    if a <= 0.0 {
      assert false;
    }
  }

  /** With the annuity payment and a logarithm obeying the log law at
      d = 1 / q, the term formula's quotient is exactly n. */
  lemma LogTerm(ln: real -> real, loanSize: real, rate: real, q: real, pay: real, d: real, n: nat)
    requires loanSize > 0.0 && rate > 0.0 && q > 1.0 && pay > 0.0
    requires pay * (q - 1.0) == loanSize * MonthlyRate(rate) * q && d * q == 1.0
    requires ln(1.0 + MonthlyRate(rate)) != 0.0 && ln(d) == -(n as real) * ln(1.0 + MonthlyRate(rate))
    ensures TermQuotient(loanSize, pay, rate, ln) == n as real
  {
    DiscountAlgebra(loanSize, MonthlyRate(rate), q, pay, d);
    assert LogArgument(loanSize, pay, rate) == d;
    LogQuotient(ln(LogArgument(loanSize, pay, rate)), ln(1.0 + MonthlyRate(rate)), n);
  }

  /** When `ln` obeys the logarithm law at the two points involved, the term
      recovered from any payment that satisfies the annuity identity for n
      months is n. */
  lemma MonthsFromAnnuity(loanSize: real, pay: real, rate: real, n: nat, ln: real -> real)
    requires loanSize > 0.0 && rate > 0.0 && n >= 1 && pay > 0.0
    requires Annuity(loanSize, pay, rate, n)
    requires ln(1.0 + MonthlyRate(rate)) != 0.0
    requires ln(Discount(rate, n)) == -(n as real) * ln(1.0 + MonthlyRate(rate))
    ensures MonthsFrom(loanSize, pay, rate, ln) == Success(n)
  {
    GrowthAboveOne(rate, n);
    MonthsFromGrowth(loanSize, pay, rate, Growth(rate, n), Discount(rate, n), n, ln);
  }

  /** `MonthsFromAnnuity` with the growth factor q and its inverse d as plain
      reals. */
  lemma MonthsFromGrowth(loanSize: real, pay: real, rate: real, q: real, d: real, n: nat, ln: real -> real)
    requires loanSize > 0.0 && rate > 0.0 && q > 1.0 && pay > 0.0
    requires pay * (q - 1.0) == loanSize * MonthlyRate(rate) * q && d * q == 1.0
    requires ln(1.0 + MonthlyRate(rate)) != 0.0 && ln(d) == -(n as real) * ln(1.0 + MonthlyRate(rate))
    ensures MonthsFrom(loanSize, pay, rate, ln) == Success(n)
  {
    assert loanSize * MonthlyRate(rate) > 0.0;
    AnnuityAboveInterest(loanSize * MonthlyRate(rate), q, pay);
    LogTerm(ln, loanSize, rate, q, pay, d, n);
    MonthsFromQuotient(loanSize, pay, rate, ln, n);
  }

  /** When the payment exceeds the first month's interest and the quotient is
      the whole number n, the term is n. */
  lemma MonthsFromQuotient(loanSize: real, pay: real, rate: real, ln: real -> real, n: nat)
    requires pay > 0.0
    requires loanSize * MonthlyRate(rate) < pay
    requires ln(1.0 + MonthlyRate(rate)) != 0.0
    requires TermQuotient(loanSize, pay, rate, ln) == n as real
    ensures MonthsFrom(loanSize, pay, rate, ln) == Success(n)
  {
    var res := MonthsFrom(loanSize, pay, rate, ln);
    assert res.Success?;
    assert TruncToInt(n as real) == n;
  }

  /** The term recovered from the payment computed for n months is n. */
  lemma MonthsRoundTrip(loanSize: real, rate: real, n: nat, ln: real -> real)
    requires loanSize > 0.0 && rate > 0.0 && n >= 1
    requires ln(1.0 + MonthlyRate(rate)) != 0.0
    requires ln(Discount(rate, n)) == -(n as real) * ln(1.0 + MonthlyRate(rate))
    ensures MonthsFrom(loanSize, PaymentFrom(loanSize, rate, n), rate, ln) == Success(n)
  {
    var pay := PaymentFrom(loanSize, rate, n);
    assert loanSize * MonthlyRate(rate) > 0.0;
    MonthsFromAnnuity(loanSize, pay, rate, n, ln);
  }
}
